=== FILE: README.md ===
# Bank statement analyzer — a Dafny model of its analysis core

The analyzer turns the text of a bank statement into a dashboard. It has three steps:

1. A three-stage pipeline (`src/llm/agent.py`) sends the text to three language-model chains. The chains return, in order, the extracted transactions, an anomaly report and financial advice.
2. The page (`app.py`) builds a table from the extracted transactions. It stops if a required column is missing. Otherwise it computes the key figures.
3. The page then writes the anomaly section and the advice section. Each section has a fallback sentence for when there is nothing to show.

This project models those three steps over the records of `src/prompt_engineering/schema.py`, and proves what each step promises.

- `wrappers.dfy`: `Option` and `Result`.
- `schema.dfy` (`Schema`):
  - the records `Transaction`, `DataExtractor`, `AnomalyDetection`, `FinancialAdvisor` and `StateSchema`, with their declared defaults;
  - `.dict()` of a transaction, and validation of a dictionary back into a transaction.
- `agent.dfy` (`Agent`): the pipeline as a state machine.
  - The three chains are parameters: functions from the message list to a record or to the error the call raised.
  - Each node sends the input text as a single user message. It returns a one-field update, which the graph merges in.
  - The edges are entry, then extract, then detect, then financial, then END.
- `assembler.dfy` (`Assembler`): the table and its figures.
  - The rows are dictionaries. A column exists when some row has the key; a key a row lacks reads as NaN, written `Null`.
  - The column check and the stop message.
  - `fillna(0.0)` on the two amount columns.
  - The figures: totals, last balance, count, top category, average movement and the two maxima.
  - The same figures restated on the extracted `Transaction`s.
- `report.dfy` (`Report`): the anomaly and advice sections, as the sequence of elements written to the page. Python truthiness decides every branch.
- `app.dfy` (`App`): one whole analysis, from the input text to a page that has failed, stopped or shows the dashboard. It also holds worked statements.

Amounts are exact reals. A missing balance (NaN) is `None`.

The current balance is the last row's in extraction order (`df["Balance"].iloc[-1]`, app.py:78), whatever its date; rows with balances 1050.00 then 950.00 report 950.00 (`App.BalanceFollowsExtractionOrder`).

## Model

| member | source | states |
|---|---|---|
| Schema.SchemaDefaults | src/prompt_engineering/schema.py:10-32 | Omitted fields take their declared defaults: any transaction built from its six required fields keeps them and has both amounts absent; the anomaly list is empty, summaries are absent, recommendations are an empty list, and a fresh state holds only its input. |
| Schema.TransactionDictShape | src/prompt_engineering/schema.py:5-13 | The dictionary of a transaction has exactly the eight declared keys. Each key holds its field, and an absent amount appears as `None`. |
| Schema.TransactionsToDicts | src/llm/agent.py:12 | The stored transaction list has one dictionary per extracted transaction, in extraction order. |
| Schema.ExtractorToDict | src/llm/agent.py:12 | The extractor's record is stored under the single key `transactions`. |
| Schema.ValidationErrors | src/prompt_engineering/schema.py:5-13 | A dictionary has no field errors exactly when it conforms to the Transaction schema. There are at most eight errors, and each names a declared field. |
| Schema.TransactionDateErrorNamed | src/prompt_engineering/schema.py:6 | The transaction date is reported missing exactly when it is absent, and mistyped exactly when it is present but not text. |
| Schema.PostedDateErrorNamed | src/prompt_engineering/schema.py:7 | The posted date is reported missing exactly when it is absent, and mistyped exactly when it is present but not text. |
| Schema.TransactionIdErrorNamed | src/prompt_engineering/schema.py:8 | The transaction id is reported missing exactly when it is absent, and mistyped exactly when it is present but not text. |
| Schema.DescriptionErrorNamed | src/prompt_engineering/schema.py:9 | The description is reported missing exactly when it is absent, and mistyped exactly when it is present but not text. |
| Schema.WithdrawalErrorNamed | src/prompt_engineering/schema.py:10 | The optional withdrawal is never reported missing. It is mistyped exactly when it holds text. |
| Schema.DepositErrorNamed | src/prompt_engineering/schema.py:11 | The optional deposit is never reported missing. It is mistyped exactly when it holds text. |
| Schema.BalanceErrorNamed | src/prompt_engineering/schema.py:12 | The balance is reported missing exactly when it is absent, and mistyped exactly when it is present but not a number. |
| Schema.CategoryErrorNamed | src/prompt_engineering/schema.py:13 | The category is reported missing exactly when it is absent, and mistyped exactly when it is present but not text. |
| Schema.ValidationErrorsDistinct | src/prompt_engineering/schema.py:5-13 | No two validation errors name the same field: at most one error per declared field. |
| Schema.TransactionFromDict | src/prompt_engineering/schema.py:5-13 | Validation succeeds exactly when the six required fields are present with their types and the two amounts are absent, `None` or numbers. An absent or `None` amount becomes absent. On success the record's four text fields, balance and category are the dictionary's values. A failure lists between one and eight errors, each naming a declared field. |
| Schema.DictRoundTrip | src/prompt_engineering/schema.py:5-13 | Validating the dictionary of a transaction gives back that transaction. |
| Schema.RequiredFieldIsEnforced | src/prompt_engineering/schema.py:6-13 | A dictionary lacking any required key is rejected with a missing-field error for that key. |
| Schema.AmountsDefaultToAbsent | src/prompt_engineering/schema.py:10-11 | A conforming dictionary without the amount keys validates to a transaction whose amounts are both absent. |
| Agent.RunNode | src/llm/agent.py:10-20 | A node succeeds exactly when its chain succeeds on the state's input. A failing node raises that chain's error. A successful node writes only its own field: the extractor's output in dictionary form, or the other records verbatim. |
| Agent.Merge | src/llm/agent.py:10-20 | Merging an update overwrites the field its node writes and leaves every other field unchanged. |
| Agent.NodeReadsOnlyInput | src/llm/agent.py:10-20 | A node's update depends on the state's input alone. |
| Agent.Trace | src/llm/agent.py:28-31 | The path from a node to END starts at that node, has one node per remaining edge plus one, follows an edge from each node to the next, and ends at the node whose edge leads to END. |
| Agent.RunFrom | src/llm/agent.py:28-31 | Definition, no contract: run a node, merge its update, follow its edge, stop at END or at the first raised error. See Agent.RunFromIsTrace. |
| Agent.Invoke | app.py:54 | Definition, no contract: `graph.invoke` on a fresh state holding only the input, run from the entry. See Agent.InvokeOutcome. |
| Agent.ScheduleIsFixed | src/llm/agent.py:28-31 | From the entry the graph visits extract, detect and financial, in that order, each exactly once. |
| Agent.RunFromIsTrace | src/llm/agent.py:23-33 | Following the edges from a node is the same as executing the nodes of its path in order. |
| Agent.RunOrderSucceeds | src/llm/agent.py:10-31 | Executing nodes in turn succeeds exactly when every node's chain succeeds on the input. |
| Agent.RunOrderValue | src/llm/agent.py:10-31 | A successful execution yields the state in which each executed node has written its chain's result. |
| Agent.RunOrderFailure | src/llm/agent.py:10-31 | A failed execution reports the error of the first node whose chain fails, and every node before it succeeded. |
| Agent.RunOrderSettles | src/llm/agent.py:10-31 | Combines the three previous rows: success exactly when all chains succeed, the settled state on success, and the first failing node's error on failure. |
| Agent.InvokeOutcome | src/llm/agent.py:10-33 | A run completes exactly when all three chains succeed. It then holds the input, the extractor's dictionary form and the two other records. A failed run raises the first failing chain's error, in graph order. |
| Agent.StageOrderIrrelevant | src/llm/agent.py:28-31 | Executing the three stages in any order succeeds exactly when the graph's run does, and then ends in the same state. |
| Assembler.MissingFrom | app.py:61 | A column is reported exactly when it is listed and no row has it. The report keeps the order of the list. |
| Assembler.MissingColumns | app.py:58-62 | Lists exactly the expected columns absent from every row, in the fixed order. The list is empty exactly when all six columns are present. |
| Assembler.EmptyTableMissesAll | app.py:58-61 | An empty table misses all six expected columns, listed in their fixed order. |
| Assembler.MissingFromNoRows | app.py:61 | With no rows, every listed column is reported, in order. |
| Assembler.Join | app.py:63 | `", ".join`: definition; its partner is Split, see Assembler.SplitJoin. |
| Assembler.SplitJoin | app.py:63 | Splitting a ", "-joined list of non-empty, comma-free names at ", " gives back the names, in order. |
| Assembler.StopMessage | app.py:63 | Definition: the fixed prefix followed by the missing names joined with ", ". See Assembler.StopMessageReadsBack. |
| Assembler.StopMessageReadsBack | app.py:63 | A reader who strips the prefix and splits at ", " recovers exactly the listed names, in order. |
| Assembler.StopMessageDetermines | app.py:63 | Two different lists of column names never give the same stop message. |
| Assembler.StopMessageNamesMissing | app.py:60-63 | The stop message of any table reads back as exactly its missing columns, in the fixed order. |
| Assembler.AllColumnsMessage | app.py:60-63 | With every column missing, the message names all six columns, comma-separated, in their fixed order. |
| Assembler.Amounts | app.py:69-70 | After `fillna(0.0)`, each row's amount is its number, or 0 when the key is absent or null. |
| Assembler.SumAppend | app.py:76-77 | The sum of two columns stacked one after the other is the sum of their sums. |
| Assembler.SumPairwise | app.py:81 | Summing a row-wise sum of two columns equals adding the two columns' sums. |
| Assembler.TotalsSplit | app.py:69-77 | The totals of a concatenated table are the sums of the parts' totals. |
| Assembler.TotalWithdrawals | app.py:76 | Definition, no contract: the sum of the cleaned withdrawal column. See Assembler.TotalsSplit and Assembler.TransactionTotals. |
| Assembler.TotalDeposits | app.py:77 | Definition, no contract: the sum of the cleaned deposit column. See Assembler.TotalsSplit and Assembler.TransactionTotals. |
| Assembler.NullAmountsAddNothing | app.py:69-77 | A row whose amounts are absent or null leaves both totals unchanged. |
| Assembler.CurrentBalance | app.py:78 | The current balance is the last row's balance. It is absent exactly when that row has no numeric balance (NaN). |
| Assembler.BalanceIsLastRow | app.py:78 | Earlier rows never affect the current balance. |
| Assembler.Movements | app.py:81 | The movement column holds each row's cleaned withdrawal plus its cleaned deposit. |
| Assembler.AverageTransaction | app.py:81 | The mean movement equals the two totals added and divided by the row count. |
| Assembler.Max | app.py:83-84 | The maximum of a non-empty column is one of its values and is at least every value. |
| Assembler.Categories | app.py:80 | The category column holds each row's category cell, with absent keys read as null. |
| Assembler.TopFrom | app.py:80 | Scanning the rest of the column keeps a leader that is a non-null category, occurs, and is counted at least as often as every non-null category seen. |
| Assembler.LeaderIsTop | app.py:80 | A leader of the whole column is absent exactly when every category is null. Otherwise it occurs, and no category is counted more often. |
| Assembler.TopCategory | app.py:80 | The top category is absent exactly when no row has a category value. Otherwise it is a non-null category some row has, counted at least as often as every other. |
| Assembler.Figures | app.py:76-84 | On a non-empty table:<br>- the figures are the row count, the cleaned totals and the last row's balance;<br>- the average is the totals over the count;<br>- each maximum is one of its column's values and at least every value. |
| Assembler.Assemble | app.py:58-84 | Stops with the missing-column list exactly when some expected column is absent from every row. Raises for lack of categories exactly when the columns are present but every category is null. Otherwise the table is non-empty, and the figures are those of the table and its top category. |
| Assembler.AssembledFigures | app.py:76-84 | A successful assembly reports the table's row count, its cleaned totals, the last row's balance, the totals over the count as the average, its top category and the two column maxima. |
| Assembler.TransactionRows | app.py:58 | Definition, no contract: `extracted_data.get("transactions", [])`. See App.CompletedTable. |
| Assembler.TransactionRowCells | app.py:69-80 | A transaction's row holds its amounts (null when absent), its balance and its category in the columns the figures read. |
| Assembler.TransactionDictsWellTyped | app.py:69-71 | Rows built from transactions hold only numbers or nulls in the amount and balance columns. Each row's category is its transaction's category. |
| Assembler.TransactionTableColumns | app.py:58-62 | A table of transactions misses a column exactly when it has no rows. It then misses all six. |
| Assembler.SingleTransactionTotals | app.py:69-77 | A one-row table's totals are its transaction's amounts, with an absent amount counting as 0. |
| Assembler.TransactionTotals | app.py:69-77 | The totals of a table of transactions add each transaction's amounts, with an absent amount counting as 0. |
| Assembler.TransactionBalance | app.py:78 | The current balance of a table of transactions is the last transaction's balance. |
| Assembler.TransactionCategory | app.py:80 | The top category of a table of transactions is the category text of one of them. |
| Assembler.TextCounts | app.py:80 | Counting category cells that are all texts counts the texts themselves. |
| Assembler.TransactionCategoryCounts | app.py:80 | No category of the transactions occurs more often than the table's top category. |
| Assembler.TransactionAmounts | app.py:69-70 | The cleaned amount columns of a table of transactions are the transactions' amounts, with absent ones as 0. |
| Assembler.TableTotals | app.py:76-81 | A table of transactions reports the transaction count, the added amounts, and their total over the count as the average. |
| Assembler.TotalsAreSums | app.py:76-77 | The running totals of the transactions equal the sums of their per-transaction amounts, with absent amounts as 0. |
| Assembler.TableBalanceAndCategory | app.py:78-80 | A table of transactions reports the last transaction's balance and, as top category, one of their categories that no other category outnumbers. |
| Assembler.TableMaxima | app.py:83-84 | A table of transactions reports as its maxima a largest withdrawal and a largest deposit among the transactions. |
| Assembler.AssembledTransactions | app.py:57-84 | A successful assembly of the extracted transactions reports figures read off the transactions themselves: count, added amounts, average, last balance, a most frequent category and the largest amounts. |
| Report.NonEmptyEntries | app.py:146 | Every entry with at least one key is kept as often as it occurs, and no empty entry is kept. |
| Report.NonEmptyEntriesAppend | app.py:146 | Filtering a list split in two filters each part and keeps the parts in order, so the kept entries stay in report order. |
| Report.NonEmptyEntry | app.py:146 | A single entry is kept exactly when it has a key. |
| Report.AnomalySection | app.py:132-156 | The anomaly section is the summary, the advice and the bulleted non-empty entries. The fallback sentence follows exactly when the report is absent, it has entries but every one is empty, or it shows nothing at all. |
| Report.AnomalyBodyInfo | app.py:139-150 | Before the fallback, the section holds the fallback sentence only when it is the report's own summary. |
| Report.AnomalyFallback | app.py:145-156 | "No anomalies detected." is shown in an info box once, at the end, exactly in the three fallback cases. A second info box with it appears only when the summary is that very sentence. The advice may also be that sentence, but it is written as plain text, not as an info box. |
| Report.AnomalyBodyListed | app.py:145-150 | The body of the anomaly section lists exactly the non-empty entries, and no recommendation. |
| Report.AnomaliesListed | app.py:145-156 | The anomaly section lists each non-empty entry once, in report order, and nothing when the report is absent. |
| Report.LabelledInfo | app.py:139-144 | A labelled block holds an info box only for its own non-empty text, shown as info. |
| Report.AdviceSection | app.py:158-178 | The advice section is the summary, the advice and the bulleted recommendations. The fallback sentence follows exactly when the record is absent or shows nothing. |
| Report.AdviceFallback | app.py:160-178 | "No financial advice available." is shown in an info box once, at the end, exactly in the fallback cases. A second info box with it appears only when the summary is that sentence. The advice may also be that sentence, but it is written as plain text, not as an info box. |
| Report.RecommendationsListed | app.py:171-174 | Every recommendation is listed, in order, exactly when the list is non-empty. No anomaly bullet appears. |
| App.Render | app.py:57-84 | A completed state:<br>- stops with the missing-column message exactly when some column is absent;<br>- never fails;<br>- crashes exactly when assembly finds no category value;<br>- otherwise reaches the dashboard, carrying the assembled figures and the two sections of its records. |
| App.Analyze | app.py:50-66 | The page fails exactly when the pipeline raises, with the pipeline's error. Otherwise it renders the completed state. |
| App.CompletedTable | app.py:57-58 | After a completed run, the table is the dictionaries of the extracted transactions, and it is well typed. |
| App.AnalyzeOutcome | app.py:54-80 | End to end:<br>- the page fails exactly when some chain raises;<br>- it stops exactly when the extractor found no transactions, naming all six columns;<br>- the empty-count crash of `idxmax` never happens. |
| App.CompletedReports | app.py:133-163 | After a completed run, the state holds the anomaly and advice records the chains returned. |
| App.DashboardFigures | app.py:57-84 | A dashboard's figures are read off the extracted transactions:<br>- the displayed count and added amounts;<br>- the displayed last balance and average movement;<br>- the displayed largest amounts;<br>- the top category, computed but not displayed, is one of their categories that no other outnumbers. |
| App.DashboardSections | app.py:132-178 | A dashboard writes the sections of the records the anomaly and advice chains returned. |
| App.TwoTransactionFigures | app.py:76-84 | A 50.00 withdrawal and a 100.00 deposit give:<br>- totals 50 and 100, and balance 1050;<br>- two transactions with average 75;<br>- maxima 50 and 100. |
| App.TwoTransactionStatement | app.py:54-84 | Analysing that statement shows those figures on the dashboard. |
| App.BalanceFollowsExtractionOrder | app.py:78 | Rows with balances 1050 then 950 report 950, the last row, although it is dated earlier. |
| App.EmptyExtractionStops | app.py:58-66 | With no transactions extracted, the page stops with the message naming all six columns in order. |

## Left out

- Reading the PDF and OCR (app.py before line 50): the model starts from the extracted text.
- The chains' prompts, the language model and structured-output parsing (`chainer.py`, `templates.py`): the chains are parameters that return a record or an error.
- The graph library's internals: the model fixes the compiled graph's behaviour, which is to run nodes along the edges, merge each partial update into the state, and stop at the first raised error.
- Date parsing, the date range and the monthly summary (app.py:72-73, 82, 124-128): they involve calendar arithmetic and feed only the display.
- The Streamlit calls, metric formatting, the data table and the Plotly charts (app.py:86-128): these are presentation.
- Logging and the `CustomException` wrapping (app.py:180-182): a raising chain becomes the `Failed` page. As written, `app.py` never imports `sys`, so the wrapping line itself raises a `NameError`. That error is chained on the chain's error. `Failed` carries the chain's error, which abstracts this.
- Floating-point arithmetic and rounding: amounts are exact reals.
- `extracted_data` set to `None`: no node writes it, so the field is a plain map.
- Anomaly entries beyond scalar values: entries (`Dict[str, Any]`, schema.py:19) are maps to scalars, so nested lists and dictionaries are not represented, and key order, which `f"- {anomaly}"` shows, is lost. Every display decision depends only on whether an entry is empty.
- Pydantic's lax coercion, such as a numeric string turning into a float: dictionary values are already typed scalars.
- Assembler.Assemble: requires the amount and balance cells to be numbers or nulls. Tables built from transactions always are (`Assembler.TransactionDictsWellTyped`). Text in those columns is not modelled. In the amount columns pandas concatenates or raises (at the latest at the mean, app.py:81). In Balance, `astype(float)` (app.py:71) converts a numeric string and raises on any other text.
- Assembler.TopCategory: does not pin which of several equally frequent categories `idxmax` returns. The contract states only that the result occurs and is not outnumbered. The definition keeps the first one seen.

=== FILE: agent.dfy ===
/**
 * The three-stage analysis graph of `src/llm/agent.py`: extract transactions,
 * detect anomalies, give financial advice, then END. Each stage sends the
 * state's input text to its language-model chain as a single user message and
 * returns a one-field partial update, which the graph merges by overwriting
 * that field. The chains themselves are parameters: functions from the
 * message list to the structured record or to the error the call raised.
 */
module Agent {
  import opened Wrappers
  import opened Schema

  /** One chat message sent to a chain. */
  datatype Message = Message(role: string, content: string)

  /** What a chain call may raise: the engine was unreachable, or its reply did not fit the schema. */
  datatype StageError = EngineUnavailable | SchemaViolation

  /** The three structured-output chains, left uninterpreted. */
  datatype Chains = Chains(
    dataExtractor: seq<Message> -> Result<DataExtractor, StageError>,
    anomalyDetector: seq<Message> -> Result<AnomalyDetection, StageError>,
    financialAdvisor: seq<Message> -> Result<FinancialAdvisor, StageError>)

  /** The graph's nodes. */
  datatype Node = ExtractTransactions | DetectAnomalies | Financial

  /** A partial state update, naming the one field a node writes. */
  datatype Update =
    | ExtractedData(data: map<string, seq<Dict>>)
    | AnomalyReport(report: AnomalyDetection)
    | FinancialAdvice(advice: FinancialAdvisor)

  /** The messages every node sends: the input text as the single user message. */
  function Prompt(input: string): seq<Message> {
    [Message("user", input)]
  }

  /** The node whose field an update writes. */
  function Writer(u: Update): Node {
    match u
    case ExtractedData(_) => ExtractTransactions
    case AnomalyReport(_) => DetectAnomalies
    case FinancialAdvice(_) => Financial
  }

  /** The node's chain call succeeds on this input. */
  predicate Succeeds(c: Chains, n: Node, input: string) {
    match n
    case ExtractTransactions => c.dataExtractor(Prompt(input)).Ok?
    case DetectAnomalies => c.anomalyDetector(Prompt(input)).Ok?
    case Financial => c.financialAdvisor(Prompt(input)).Ok?
  }

  /** The error the node's chain call raises on this input. */
  function Failure(c: Chains, n: Node, input: string): StageError
    requires !Succeeds(c, n, input)
  {
    match n
    case ExtractTransactions => c.dataExtractor(Prompt(input)).error
    case DetectAnomalies => c.anomalyDetector(Prompt(input)).error
    case Financial => c.financialAdvisor(Prompt(input)).error
  }

  /**
   * Running one node: the chain is queried with the state's input only, and
   * the node's own field is the only one its update writes. The extractor's
   * record is stored in dictionary form; the other two are stored verbatim.
   */
  function RunNode(c: Chains, n: Node, s: StateSchema): (r: Result<Update, StageError>)
    ensures r.Ok? <==> Succeeds(c, n, s.input)
    ensures r.Err? ==> r.error == Failure(c, n, s.input)
    ensures r.Ok? ==> Writer(r.value) == n
    ensures r.Ok? && n == ExtractTransactions ==>
      r.value.data == ExtractorToDict(c.dataExtractor(Prompt(s.input)).value)
    ensures r.Ok? && n == DetectAnomalies ==>
      r.value.report == c.anomalyDetector(Prompt(s.input)).value
    ensures r.Ok? && n == Financial ==>
      r.value.advice == c.financialAdvisor(Prompt(s.input)).value
  {
    match n
    case ExtractTransactions =>
      (match c.dataExtractor(Prompt(s.input))
       case Ok(output) => Ok(ExtractedData(ExtractorToDict(output)))
       case Err(e) => Err(e))
    case DetectAnomalies =>
      (match c.anomalyDetector(Prompt(s.input))
       case Ok(output) => Ok(AnomalyReport(output))
       case Err(e) => Err(e))
    case Financial =>
      (match c.financialAdvisor(Prompt(s.input))
       case Ok(output) => Ok(FinancialAdvice(output))
       case Err(e) => Err(e))
  }

  /** Two states agree on every field except the one node `n` writes. */
  predicate SameExcept(s: StateSchema, s': StateSchema, n: Node) {
    && s'.input == s.input
    && (n != ExtractTransactions ==> s'.extractedData == s.extractedData)
    && (n != DetectAnomalies ==> s'.anomalyReport == s.anomalyReport)
    && (n != Financial ==> s'.financialAdvice == s.financialAdvice)
  }

  /** Merging a partial update overwrites the named field and nothing else. */
  function Merge(s: StateSchema, u: Update): (s': StateSchema)
    ensures SameExcept(s, s', Writer(u))
    ensures u.ExtractedData? ==> s'.extractedData == u.data
    ensures u.AnomalyReport? ==> s'.anomalyReport == Some(u.report)
    ensures u.FinancialAdvice? ==> s'.financialAdvice == Some(u.advice)
  {
    match u
    case ExtractedData(data) => s.(extractedData := data)
    case AnomalyReport(report) => s.(anomalyReport := Some(report))
    case FinancialAdvice(advice) => s.(financialAdvice := Some(advice))
  }

  /** A node's query reads only `input`: states with the same input give the same update. */
  lemma NodeReadsOnlyInput(c: Chains, n: Node, s1: StateSchema, s2: StateSchema)
    requires s1.input == s2.input
    ensures RunNode(c, n, s1) == RunNode(c, n, s2)
  {
  }

  // ---------------------------------------------------------------------------
  // Graph wiring
  // ---------------------------------------------------------------------------

  /** The entry point of the graph. */
  const Entry: Node := ExtractTransactions

  /** The edge leaving each node; `None` is END. */
  function Next(n: Node): Option<Node> {
    match n
    case ExtractTransactions => Some(DetectAnomalies)
    case DetectAnomalies => Some(Financial)
    case Financial => None
  }

  /** How many edges separate a node from END. */
  function Remaining(n: Node): nat {
    match n
    case ExtractTransactions => 2
    case DetectAnomalies => 1
    case Financial => 0
  }

  /** The nodes visited from `n` to END, following the edges. */
  function Trace(n: Node): (r: seq<Node>)
    ensures |r| == Remaining(n) + 1 && r[0] == n
    ensures forall i :: 0 <= i < |r| - 1 ==> Next(r[i]) == Some(r[i + 1])
    ensures Next(r[|r| - 1]) == None
    decreases Remaining(n)
  {
    match Next(n)
    case None => [n]
    case Some(m) => [n] + Trace(m)
  }

  /** From the entry the graph visits extract, detect, financial, each exactly once. */
  lemma ScheduleIsFixed()
    ensures Trace(Entry) == [ExtractTransactions, DetectAnomalies, Financial]
    ensures forall n: Node :: multiset(Trace(Entry))[n] == 1
  {
    assert Trace(Financial) == [Financial];
    assert Trace(DetectAnomalies) == [DetectAnomalies, Financial];
    var m := multiset(Trace(Entry));
    assert m == multiset{ExtractTransactions, DetectAnomalies, Financial};
    forall n: Node ensures m[n] == 1 {
      match n
      case ExtractTransactions =>
      case DetectAnomalies =>
      case Financial =>
    }
  }

  /** Executing the graph from node `n`: fail fast on the first raising node. */
  function RunFrom(c: Chains, n: Node, s: StateSchema): Result<StateSchema, StageError>
    decreases Remaining(n)
  {
    match RunNode(c, n, s)
    case Err(e) => Err(e)
    case Ok(u) =>
      match Next(n)
      case None => Ok(Merge(s, u))
      case Some(m) => RunFrom(c, m, Merge(s, u))
  }

  /** `graph.invoke({"input": text})`: a fresh state holding only the input, run from the entry. */
  function Invoke(c: Chains, text: string): Result<StateSchema, StageError> {
    RunFrom(c, Entry, NewState(text))
  }

  /** Executing any sequence of nodes in turn, failing fast. */
  function RunOrder(c: Chains, order: seq<Node>, s: StateSchema): Result<StateSchema, StageError> {
    if order == [] then Ok(s)
    else
      match RunNode(c, order[0], s)
      case Err(e) => Err(e)
      case Ok(u) => RunOrder(c, order[1..], Merge(s, u))
  }

  /** Following the edges from `n` is executing the nodes of `Trace(n)` in order. */
  lemma {:induction false} RunFromIsTrace(c: Chains, n: Node, s: StateSchema)
    ensures RunFrom(c, n, s) == RunOrder(c, Trace(n), s)
    decreases Remaining(n)
  {
    var t := Trace(n);
    assert t[1..] == if Next(n).Some? then Trace(Next(n).value) else [];
    match RunNode(c, n, s)
    case Err(e) =>
    case Ok(u) =>
      match Next(n)
      case None =>
      case Some(m) => RunFromIsTrace(c, m, Merge(s, u));
  }

  // ---------------------------------------------------------------------------
  // Order independence
  // ---------------------------------------------------------------------------

  /** The state after the nodes in `done` have each written the result of their chain on `s.input`. */
  function Settle(c: Chains, s: StateSchema, done: set<Node>): StateSchema
    requires forall n :: n in done ==> Succeeds(c, n, s.input)
  {
    var p := Prompt(s.input);
    assert ExtractTransactions in done ==> Succeeds(c, ExtractTransactions, s.input);
    assert DetectAnomalies in done ==> Succeeds(c, DetectAnomalies, s.input);
    assert Financial in done ==> Succeeds(c, Financial, s.input);
    StateSchema(
      s.input,
      if ExtractTransactions in done then ExtractorToDict(c.dataExtractor(p).value) else s.extractedData,
      if DetectAnomalies in done then Some(c.anomalyDetector(p).value) else s.anomalyReport,
      if Financial in done then Some(c.financialAdvisor(p).value) else s.financialAdvice)
  }

  /** Executing nodes in order succeeds exactly when every node's chain succeeds on the input. */
  lemma {:induction false} RunOrderSucceeds(c: Chains, order: seq<Node>, s: StateSchema)
    ensures RunOrder(c, order, s).Ok? <==> forall i :: 0 <= i < |order| ==> Succeeds(c, order[i], s.input)
    decreases |order|
  {
    if order != [] {
      match RunNode(c, order[0], s)
      case Err(e) =>
      case Ok(u) =>
        var rest := order[1..];
        RunOrderSucceeds(c, rest, Merge(s, u));
        assert forall i :: 1 <= i < |order| ==> order[i] == rest[i - 1];
    }
  }

  /** A successful execution leaves each executed node's result written, in whatever order they ran. */
  lemma {:induction false} RunOrderValue(c: Chains, order: seq<Node>, s: StateSchema)
    requires forall i :: 0 <= i < |order| ==> Succeeds(c, order[i], s.input)
    ensures RunOrder(c, order, s) == Ok(Settle(c, s, set n | n in order))
    decreases |order|
  {
    if order != [] {
      assert Succeeds(c, order[0], s.input);
      var u := RunNode(c, order[0], s).value;
      var rest := order[1..];
      assert forall i :: 0 <= i < |rest| ==> rest[i] == order[i + 1];
      RunOrderValue(c, rest, Merge(s, u));
      assert (set n | n in order) == {order[0]} + (set n | n in rest);
    }
  }

  /** A failed execution reports the error of the first node whose chain fails. */
  lemma {:induction false} RunOrderFailure(c: Chains, order: seq<Node>, s: StateSchema)
    requires RunOrder(c, order, s).Err?
    ensures exists k :: 0 <= k < |order| && !Succeeds(c, order[k], s.input)
                     && (forall i :: 0 <= i < k ==> Succeeds(c, order[i], s.input))
                     && RunOrder(c, order, s).error == Failure(c, order[k], s.input)
    decreases |order|
  {
    match RunNode(c, order[0], s)
    case Err(e) =>
      assert !Succeeds(c, order[0], s.input);
    case Ok(u) =>
      var s' := Merge(s, u);
      var rest := order[1..];
      RunOrderFailure(c, rest, s');
      var k :| 0 <= k < |rest| && !Succeeds(c, rest[k], s.input)
        && (forall i :: 0 <= i < k ==> Succeeds(c, rest[i], s.input))
        && RunOrder(c, rest, s').error == Failure(c, rest[k], s.input);
      assert order[k + 1] == rest[k];
      assert forall i :: 1 <= i < k + 1 ==> order[i] == rest[i - 1];
  }

  /**
   * Executing nodes in any order succeeds exactly when every node's chain
   * succeeds on the input, and then yields the state in which each node in
   * the order has written its chain's result; the order itself is irrelevant.
   * On failure the error is the first failing node's.
   */
  lemma RunOrderSettles(c: Chains, order: seq<Node>, s: StateSchema)
    ensures RunOrder(c, order, s).Ok? <==> forall i :: 0 <= i < |order| ==> Succeeds(c, order[i], s.input)
    ensures RunOrder(c, order, s).Ok? ==>
      RunOrder(c, order, s).value == Settle(c, s, set n | n in order)
    ensures RunOrder(c, order, s).Err? ==>
      exists k :: 0 <= k < |order| && !Succeeds(c, order[k], s.input)
        && (forall i :: 0 <= i < k ==> Succeeds(c, order[i], s.input))
        && RunOrder(c, order, s).error == Failure(c, order[k], s.input)
  {
    RunOrderSucceeds(c, order, s);
    if RunOrder(c, order, s).Ok? {
      RunOrderValue(c, order, s);
    } else {
      RunOrderFailure(c, order, s);
    }
  }

  /**
   * A completed run sets each result field to its chain applied to the
   * original input; the run fails exactly when some chain raises, and then
   * with the error of the first raising node in graph order.
   */
  lemma InvokeOutcome(c: Chains, text: string)
    ensures Invoke(c, text).Ok? <==>
      && c.dataExtractor(Prompt(text)).Ok?
      && c.anomalyDetector(Prompt(text)).Ok?
      && c.financialAdvisor(Prompt(text)).Ok?
    ensures Invoke(c, text).Ok? ==>
      Invoke(c, text).value == StateSchema(
        text,
        ExtractorToDict(c.dataExtractor(Prompt(text)).value),
        Some(c.anomalyDetector(Prompt(text)).value),
        Some(c.financialAdvisor(Prompt(text)).value))
    ensures Invoke(c, text).Err? ==>
      Invoke(c, text).error ==
        if c.dataExtractor(Prompt(text)).Err? then c.dataExtractor(Prompt(text)).error
        else if c.anomalyDetector(Prompt(text)).Err? then c.anomalyDetector(Prompt(text)).error
        else c.financialAdvisor(Prompt(text)).error
  {
    ScheduleIsFixed();
    RunFromIsTrace(c, Entry, NewState(text));
    var order := Trace(Entry);
    RunOrderSettles(c, order, NewState(text));
    assert (set n | n in order) == {ExtractTransactions, DetectAnomalies, Financial};
  }

  /**
   * Running the three stages in any order succeeds exactly when the graph's
   * own run does, and then yields the same final state.
   */
  lemma StageOrderIrrelevant(c: Chains, order: seq<Node>, text: string)
    requires multiset(order) == multiset(Trace(Entry))
    ensures RunOrder(c, order, NewState(text)).Ok? <==> Invoke(c, text).Ok?
    ensures RunOrder(c, order, NewState(text)).Ok? ==> RunOrder(c, order, NewState(text)) == Invoke(c, text)
  {
    ScheduleIsFixed();
    RunFromIsTrace(c, Entry, NewState(text));
    var canonical := Trace(Entry);
    RunOrderSettles(c, order, NewState(text));
    RunOrderSettles(c, canonical, NewState(text));
    assert (set n | n in order) == (set n | n in canonical) by {
      forall n: Node ensures n in order <==> n in canonical {
        assert n in order <==> n in multiset(order);
        assert n in canonical <==> n in multiset(canonical);
      }
    }
  }
}

=== FILE: app.dfy ===
/**
 * One analysis in `app.py`, from the extracted document text to what the page
 * shows: the graph runs, the table of extracted transactions is validated and
 * summarised, then the anomaly and advice sections are written.
 */
module App {
  import opened Wrappers
  import opened Schema
  import opened Agent
  import opened Assembler
  import opened Report

  /** What one analysis ends with. */
  datatype Page =
    | Failed(error: StageError)   // a chain raised inside `graph.invoke`
    | Stopped(message: string)    // `st.error(msg)` then `st.stop()`
    | Crashed                     // `value_counts().idxmax()` raised on an empty count
    | Dashboard(kpis: Kpis, anomalies: seq<Element>, advice: seq<Element>)

  /** The page for a completed state: validate and summarise the table, then write both sections. */
  function Render(s: StateSchema): (p: Page)
    requires WellTyped(TransactionRows(s.extractedData))
    ensures p.Stopped? <==> exists col :: col in ExpectedColumns && !HasColumn(TransactionRows(s.extractedData), col)
    ensures p.Stopped? ==> p.message == StopMessage(MissingColumns(TransactionRows(s.extractedData)))
    ensures !p.Failed?
    ensures p.Dashboard? <==> Assemble(TransactionRows(s.extractedData)).Ok?
    ensures p.Crashed? <==> Assemble(TransactionRows(s.extractedData)) == Err(NoCategoryValues)
    ensures p.Dashboard? ==> Assemble(TransactionRows(s.extractedData)) == Ok(p.kpis)
    ensures p.Dashboard? ==> p.anomalies == AnomalySection(s.anomalyReport) && p.advice == AdviceSection(s.financialAdvice)
  {
    match Assemble(TransactionRows(s.extractedData))
    case Err(MissingColumnsError(missing)) => Stopped(StopMessage(missing))
    case Err(NoCategoryValues) => Crashed
    case Ok(k) => Dashboard(k, AnomalySection(s.anomalyReport), AdviceSection(s.financialAdvice))
  }

  /** Running the graph, then rendering the completed state; a raising chain fails the page. */
  function Analyze(c: Chains, text: string): (p: Page)
    ensures p.Failed? <==> Invoke(c, text).Err?
    ensures p.Failed? ==> p.error == Invoke(c, text).error
    ensures !p.Failed? ==> p == Render(Invoke(c, text).value)
  {
    match Invoke(c, text)
    case Err(e) => Failed(e)
    case Ok(state) =>
      InvokeOutcome(c, text);
      TransactionDictsWellTyped(c.dataExtractor(Prompt(text)).value.transactions);
      Render(state)
  }

  /** The state of a completed run holds the extracted transactions' dictionaries as its table. */
  lemma CompletedTable(c: Chains, text: string)
    requires Invoke(c, text).Ok?
    ensures c.dataExtractor(Prompt(text)).Ok?
    ensures TransactionRows(Invoke(c, text).value.extractedData)
      == TransactionsToDicts(c.dataExtractor(Prompt(text)).value.transactions)
    ensures WellTyped(TransactionRows(Invoke(c, text).value.extractedData))
  {
    InvokeOutcome(c, text);
    TransactionDictsWellTyped(c.dataExtractor(Prompt(text)).value.transactions);
  }

  /**
   * The page fails exactly when a chain raises, with the first raising
   * stage's error; it stops, listing all six columns, exactly when the
   * extractor found no transactions; it never reaches the empty-count crash.
   */
  lemma AnalyzeOutcome(c: Chains, text: string)
    ensures Analyze(c, text).Failed? <==>
      c.dataExtractor(Prompt(text)).Err? || c.anomalyDetector(Prompt(text)).Err?
      || c.financialAdvisor(Prompt(text)).Err?
    ensures Analyze(c, text).Stopped? <==>
      !Analyze(c, text).Failed? && c.dataExtractor(Prompt(text)).value.transactions == []
    ensures Analyze(c, text).Stopped? ==> Analyze(c, text).message == StopMessage(ExpectedColumns)
    ensures !Analyze(c, text).Crashed?
  {
    InvokeOutcome(c, text);
    if Invoke(c, text).Ok? {
      CompletedTable(c, text);
      var ts := c.dataExtractor(Prompt(text)).value.transactions;
      var rows := TransactionsToDicts(ts);
      TransactionTableColumns(ts);
      TransactionDictsWellTyped(ts);
      if ts != [] {
        assert !CellAt(rows[0], "Category").Null?;
      }
    }
  }

  /** The state of a completed run holds the anomaly and advice records the chains returned. */
  lemma CompletedReports(c: Chains, text: string)
    requires Invoke(c, text).Ok?
    ensures c.anomalyDetector(Prompt(text)).Ok? && c.financialAdvisor(Prompt(text)).Ok?
    ensures Invoke(c, text).value.anomalyReport == Some(c.anomalyDetector(Prompt(text)).value)
    ensures Invoke(c, text).value.financialAdvice == Some(c.financialAdvisor(Prompt(text)).value)
  {
    InvokeOutcome(c, text);
  }

  /**
   * A page showing figures reports those of the extracted transactions: their
   * count, their amounts added up with absent ones as 0, the last one's
   * balance, the average movement and the largest amounts; the top category
   * it computes, but does not display, is one of theirs that no other
   * category outnumbers.
   */
  lemma DashboardFigures(c: Chains, text: string)
    requires Analyze(c, text).Dashboard?
    ensures FiguresOf(c.dataExtractor(Prompt(text)).value.transactions, Analyze(c, text).kpis)
  {
    assert Invoke(c, text).Ok?;
    var st := Invoke(c, text).value;
    CompletedTable(c, text);
    var k := Analyze(c, text).kpis;
    assert Analyze(c, text) == Render(st);
    AssembledTransactions(c.dataExtractor(Prompt(text)).value.transactions, k);
  }

  /** A page showing figures writes the sections of the records the anomaly and advice chains returned. */
  lemma DashboardSections(c: Chains, text: string)
    requires Analyze(c, text).Dashboard?
    ensures Analyze(c, text).anomalies == AnomalySection(Some(c.anomalyDetector(Prompt(text)).value))
    ensures Analyze(c, text).advice == AdviceSection(Some(c.financialAdvisor(Prompt(text)).value))
  {
    assert Invoke(c, text).Ok?;
    var st := Invoke(c, text).value;
    CompletedReports(c, text);
    CompletedTable(c, text);
    assert Analyze(c, text) == Render(st);
  }

  /** A chain set that returns fixed records for one input. */
  predicate Answers(c: Chains, text: string, ts: seq<Transaction>, a: AnomalyDetection, f: FinancialAdvisor) {
    && c.dataExtractor(Prompt(text)) == Ok(DataExtractor(ts))
    && c.anomalyDetector(Prompt(text)) == Ok(a)
    && c.financialAdvisor(Prompt(text)) == Ok(f)
  }

  /** A statement with a 50.00 withdrawal (balance 950.00, 2025-01-01) and a 100.00 deposit (balance 1050.00, 2025-01-03). */
  const TwoTransactions: seq<Transaction> := [
    NewTransaction("2025-01-01", "2025-01-02", "TXN12345", "Fuel Station", 950.0, "Fuel", Some(50.0)),
    NewTransaction("2025-01-03", "2025-01-04", "TXN12346", "Grocery Store", 1050.0, "Shopping", deposit := Some(100.0))]

  /** The figures of that statement: totals 50 and 100, balance 1050, two rows, average 75, maxima 50 and 100. */
  lemma TwoTransactionFigures(k: Kpis)
    requires FiguresOf(TwoTransactions, k)
    ensures k.totalWithdrawals == 50.0 && k.totalDeposits == 100.0
    ensures k.currentBalance == Some(1050.0) && k.transactionCount == 2
    ensures k.avgTransaction == 75.0
    ensures k.maxWithdrawal == 50.0 && k.maxDeposit == 100.0
  {
    var ts := TwoTransactions;
    assert ts[..1][..0] == [];
    assert ts[..1] == [ts[0]];
    assert Withdrawn(ts) == 50.0;
    assert Deposited(ts) == 100.0;
    assert WithdrawalsOf(ts) == [50.0, 0.0];
    assert DepositsOf(ts) == [0.0, 100.0];
  }

  /** An analysis of that statement shows its figures. */
  lemma TwoTransactionStatement(c: Chains, text: string, a: AnomalyDetection, f: FinancialAdvisor)
    requires Answers(c, text, TwoTransactions, a, f)
    ensures Analyze(c, text).Dashboard?
    ensures Analyze(c, text).kpis.totalWithdrawals == 50.0
    ensures Analyze(c, text).kpis.totalDeposits == 100.0
    ensures Analyze(c, text).kpis.currentBalance == Some(1050.0)
    ensures Analyze(c, text).kpis.transactionCount == 2
    ensures Analyze(c, text).kpis.avgTransaction == 75.0
    ensures Analyze(c, text).kpis.maxWithdrawal == 50.0
    ensures Analyze(c, text).kpis.maxDeposit == 100.0
  {
    AnalyzeOutcome(c, text);
    DashboardFigures(c, text);
    TwoTransactionFigures(Analyze(c, text).kpis);
  }

  /**
   * The current balance is that of the last extracted row even when an
   * earlier-dated transaction comes last: rows dated 2025-01-03 (balance
   * 1050) then 2025-01-01 (balance 950) report 950.
   */
  lemma BalanceFollowsExtractionOrder(c: Chains, text: string, a: AnomalyDetection, f: FinancialAdvisor)
    requires Answers(c, text, [
      NewTransaction("2025-01-03", "2025-01-04", "TXN2", "Grocery Store", 1050.0, "Shopping", deposit := Some(100.0)),
      NewTransaction("2025-01-01", "2025-01-02", "TXN1", "Fuel Station", 950.0, "Fuel", Some(50.0))], a, f)
    ensures Analyze(c, text).Dashboard?
    ensures Analyze(c, text).kpis.currentBalance == Some(950.0)
  {
    AnalyzeOutcome(c, text);
    DashboardFigures(c, text);
  }

  /** With no transactions extracted, the page stops naming all six columns in their fixed order. */
  lemma EmptyExtractionStops(c: Chains, text: string, a: AnomalyDetection, f: FinancialAdvisor)
    requires Answers(c, text, [], a, f)
    ensures Analyze(c, text) == Stopped(AllColumnsMissing)
  {
    AnalyzeOutcome(c, text);
    AllColumnsMessage();
  }
}

=== FILE: assembler.dfy ===
/**
 * The result assembler of `app.py`: the extracted transaction dictionaries
 * become a table whose columns are every key any row has; the run stops when
 * one of six expected columns is absent, and otherwise the missing amounts
 * are read as 0 and the dashboard figures are computed. Amounts are exact
 * reals; a missing or `None` balance is NaN, written `None` here.
 */
module Assembler {
  import opened Wrappers
  import opened Schema

  /** The columns the dashboard needs, in the order a failure lists them. */
  const ExpectedColumns: seq<string> :=
    ["Withdrawal", "Deposit", "Balance", "Transaction_Date", "Posted_Date", "Category"]

  /** The message shown when the table lacks columns. */
  const MissingPrefix: string := "Missing columns in extracted data: "

  /** The table has column `col`: at least one row has the key. */
  predicate HasColumn(rows: seq<Dict>, col: string) {
    exists i :: 0 <= i < |rows| && col in rows[i]
  }

  /** `a` is `b` with some elements dropped, the rest kept in order. */
  predicate IsSubsequence<T(==)>(a: seq<T>, b: seq<T>) {
    if a == [] then true
    else if b == [] then false
    else (a[0] == b[0] && IsSubsequence(a[1..], b[1..])) || IsSubsequence(a, b[1..])
  }

  /** The columns of `cols` the table lacks, keeping their order. */
  function MissingFrom(cols: seq<string>, rows: seq<Dict>): (r: seq<string>)
    ensures forall c :: c in r <==> c in cols && !HasColumn(rows, c)
    ensures IsSubsequence(r, cols)
  {
    if cols == [] then []
    else
      var rest := MissingFrom(cols[1..], rows);
      if HasColumn(rows, cols[0]) then
        assert IsSubsequence(rest, cols);
        rest
      else
        assert ([cols[0]] + rest)[1..] == rest;
        [cols[0]] + rest
  }

  /** The expected columns the table lacks, in the fixed order of `ExpectedColumns`. */
  function MissingColumns(rows: seq<Dict>): (r: seq<string>)
    ensures forall c :: c in r <==> c in ExpectedColumns && !HasColumn(rows, c)
    ensures IsSubsequence(r, ExpectedColumns)
    ensures r == [] <==> forall c :: c in ExpectedColumns ==> HasColumn(rows, c)
  {
    var r := MissingFrom(ExpectedColumns, rows);
    assert r != [] ==> r[0] in r;
    r
  }

  /** An empty table has no columns, so all six are listed in order. */
  lemma {:induction false} EmptyTableMissesAll()
    ensures MissingColumns([]) == ExpectedColumns
  {
    var cols := ExpectedColumns;
    assert forall k :: 0 <= k <= |cols| ==> MissingFrom(cols[k..], []) == cols[k..] by {
      forall k | 0 <= k <= |cols| ensures MissingFrom(cols[k..], []) == cols[k..] {
        MissingFromNoRows(cols[k..]);
      }
    }
    assert cols[0..] == cols;
  }

  lemma {:induction false} MissingFromNoRows(cols: seq<string>)
    ensures MissingFrom(cols, []) == cols
  {
    if cols != [] {
      MissingFromNoRows(cols[1..]);
      assert cols == [cols[0]] + cols[1..];
    }
  }

  /** `", ".join(names)`. */
  function Join(names: seq<string>, sep: string): (r: string)
    ensures names == [] ==> r == ""
    ensures |names| == 1 ==> r == names[0]
  {
    if names == [] then ""
    else if |names| == 1 then names[0]
    else names[0] + sep + Join(names[1..], sep)
  }

  /** A name that reads back unambiguously from a joined list: non-empty and without a comma. */
  predicate PlainName(name: string) {
    name != "" && ',' !in name
  }

  /** The pieces of `s` between ", " separators; there is always at least one. */
  function Fields(s: string): (r: seq<string>)
    ensures |r| >= 1
    decreases |s|
  {
    if s == [] then [""]
    else if |s| >= 2 && s[0] == ',' && s[1] == ' ' then [""] + Fields(s[2..])
    else
      var rest := Fields(s[1..]);
      [[s[0]] + rest[0]] + rest[1..]
  }

  /** Reads a ", "-joined list back into its names; the empty string lists none. */
  function Split(s: string): seq<string> {
    if s == "" then [] else Fields(s)
  }

  /** A comma-free start is glued onto the first piece of what follows it. */
  lemma {:induction false} FieldsAfterPlain(w: string, rest: string)
    requires ',' !in w
    ensures Fields(w + rest) == [w + Fields(rest)[0]] + Fields(rest)[1..]
    decreases |w|
  {
    if w == [] {
      var r := Fields(rest);
      assert w + rest == rest && w + r[0] == r[0];
      assert r == [r[0]] + r[1..];
    } else {
      assert (w + rest)[1..] == w[1..] + rest;
      FieldsAfterPlain(w[1..], rest);
      assert [w[0]] + (w[1..] + Fields(rest)[0]) == w + Fields(rest)[0];
    }
  }

  /** Splitting a non-empty joined list of plain names gives the names back. */
  lemma {:induction false} FieldsOfJoin(names: seq<string>)
    requires |names| >= 1
    requires forall i :: 0 <= i < |names| ==> PlainName(names[i])
    ensures Fields(Join(names, ", ")) == names
  {
    if |names| == 1 {
      FieldsAfterPlain(names[0], "");
      assert names[0] + "" == names[0];
    } else {
      var tail := Join(names[1..], ", ");
      assert Join(names, ", ") == names[0] + (", " + tail);
      FieldsAfterPlain(names[0], ", " + tail);
      assert (", " + tail)[2..] == tail;
      FieldsOfJoin(names[1..]);
      assert names[0] + "" == names[0];
      assert names == [names[0]] + names[1..];
    }
  }

  /** Split undoes Join for plain names. */
  lemma SplitJoin(names: seq<string>)
    requires forall i :: 0 <= i < |names| ==> PlainName(names[i])
    ensures Split(Join(names, ", ")) == names
  {
    if names != [] {
      FieldsOfJoin(names);
    }
  }

  /** The error shown when columns are missing: the fixed prefix, then the names. */
  function StopMessage(missing: seq<string>): string {
    MissingPrefix + Join(missing, ", ")
  }

  /** What a reader recovers from a stop message: the listed names, if the prefix is there. */
  function ReadStopMessage(m: string): Option<seq<string>> {
    if MissingPrefix <= m then Some(Split(m[|MissingPrefix|..])) else None
  }

  /** A stop message naming plain names reads back as exactly those names, in order. */
  lemma StopMessageReadsBack(missing: seq<string>)
    requires forall i :: 0 <= i < |missing| ==> PlainName(missing[i])
    ensures ReadStopMessage(StopMessage(missing)) == Some(missing)
  {
    var m := StopMessage(missing);
    assert m[|MissingPrefix|..] == Join(missing, ", ");
    SplitJoin(missing);
  }

  /** Different lists of plain names never give the same stop message. */
  lemma StopMessageDetermines(a: seq<string>, b: seq<string>)
    requires forall i :: 0 <= i < |a| ==> PlainName(a[i])
    requires forall i :: 0 <= i < |b| ==> PlainName(b[i])
    requires StopMessage(a) == StopMessage(b)
    ensures a == b
  {
    StopMessageReadsBack(a);
    StopMessageReadsBack(b);
  }

  /** The stop message of any table names exactly its missing columns, in their fixed order. */
  lemma StopMessageNamesMissing(rows: seq<Dict>)
    ensures ReadStopMessage(StopMessage(MissingColumns(rows))) == Some(MissingColumns(rows))
  {
    var missing := MissingColumns(rows);
    assert PlainName("Withdrawal") && PlainName("Deposit") && PlainName("Balance");
    assert PlainName("Transaction_Date") && PlainName("Posted_Date") && PlainName("Category");
    forall i | 0 <= i < |missing| ensures PlainName(missing[i]) {
      assert missing[i] in missing;
    }
    StopMessageReadsBack(missing);
  }

  /** The message naming all six columns in their fixed order, comma-separated after the prefix. */
  const AllColumnsMissing: string :=
    "Missing columns in extracted data: " + ("Withdrawal" + ", " + ("Deposit" + ", " + ("Balance" + ", "
      + ("Transaction_Date" + ", " + ("Posted_Date" + ", " + "Category")))))

  /** With every column missing, the message names all six in their fixed order. */
  lemma AllColumnsMessage()
    ensures StopMessage(ExpectedColumns) == AllColumnsMissing
  {
    var names := ExpectedColumns;
    assert names[5..] == ["Category"];
    assert names[4..] == ["Posted_Date", "Category"];
    assert names[3..] == ["Transaction_Date", "Posted_Date", "Category"];
    assert names[2..] == ["Balance", "Transaction_Date", "Posted_Date", "Category"];
    assert names[1..] == ["Deposit", "Balance", "Transaction_Date", "Posted_Date", "Category"];
  }

  // ---------------------------------------------------------------------------
  // Cleaning: cells of absent keys and null coercion
  // ---------------------------------------------------------------------------

  /** The table cell of a row: a key the row lacks reads as NaN, modelled as `Null`. */
  function CellAt(row: Dict, col: string): Cell {
    if col in row then row[col] else Null
  }

  /** A cell that the numeric operations accept. */
  predicate Numeric(c: Cell) {
    c.Null? || c.Num?
  }

  /** The amount and balance columns hold only numbers and nulls, as a Transaction's dictionary does. */
  predicate WellTyped(rows: seq<Dict>) {
    forall i :: 0 <= i < |rows| ==>
      && Numeric(CellAt(rows[i], "Withdrawal"))
      && Numeric(CellAt(rows[i], "Deposit"))
      && Numeric(CellAt(rows[i], "Balance"))
  }

  /** `fillna(0.0)` on one cell. */
  function FillZero(c: Cell): real
    requires Numeric(c)
  {
    if c.Num? then c.num else 0.0
  }

  /** The two amount columns that `fillna(0.0)` cleans. */
  datatype AmountColumn = WithdrawalAmount | DepositAmount

  function ColumnName(col: AmountColumn): string {
    match col
    case WithdrawalAmount => "Withdrawal"
    case DepositAmount => "Deposit"
  }

  /** An amount column after `fillna(0.0)`, row by row: a number stays, an absent key or `None` becomes 0. */
  function Amounts(rows: seq<Dict>, col: AmountColumn): (xs: seq<real>)
    requires WellTyped(rows)
    ensures |xs| == |rows|
    ensures forall i :: 0 <= i < |rows| ==>
      xs[i] == (if ColumnName(col) in rows[i] && rows[i][ColumnName(col)].Num?
                then rows[i][ColumnName(col)].num else 0.0)
  {
    seq(|rows|, i requires 0 <= i < |rows| => FillZero(CellAt(rows[i], ColumnName(col))))
  }

  /** The sum of a column, added up from the first row. */
  function Sum(xs: seq<real>): real {
    if xs == [] then 0.0 else Sum(xs[..|xs| - 1]) + xs[|xs| - 1]
  }

  lemma {:induction false} SumAppend(a: seq<real>, b: seq<real>)
    ensures Sum(a + b) == Sum(a) + Sum(b)
    decreases |b|
  {
    if b == [] {
      assert a + b == a;
    } else {
      var b' := b[..|b| - 1];
      assert (a + b)[..|a + b| - 1] == a + b';
      SumAppend(a, b');
    }
  }

  lemma SumSingle(x: real)
    ensures Sum([x]) == x
  {
    assert [x][..0] == [];
  }

  /** Adding two columns row by row and summing equals summing each column. */
  lemma {:induction false} SumPairwise(a: seq<real>, b: seq<real>, ab: seq<real>)
    requires |a| == |b| == |ab|
    requires forall i :: 0 <= i < |ab| ==> ab[i] == a[i] + b[i]
    ensures Sum(ab) == Sum(a) + Sum(b)
    decreases |ab|
  {
    if ab != [] {
      var n := |ab| - 1;
      SumPairwise(a[..n], b[..n], ab[..n]);
    }
  }

  function TotalWithdrawals(rows: seq<Dict>): real
    requires WellTyped(rows)
  {
    Sum(Amounts(rows, WithdrawalAmount))
  }

  function TotalDeposits(rows: seq<Dict>): real
    requires WellTyped(rows)
  {
    Sum(Amounts(rows, DepositAmount))
  }

  /** Totals distribute over concatenated tables: each row contributes its coerced amount once. */
  lemma TotalsSplit(a: seq<Dict>, b: seq<Dict>)
    requires WellTyped(a) && WellTyped(b) && WellTyped(a + b)
    ensures TotalWithdrawals(a + b) == TotalWithdrawals(a) + TotalWithdrawals(b)
    ensures TotalDeposits(a + b) == TotalDeposits(a) + TotalDeposits(b)
  {
    assert Amounts(a + b, WithdrawalAmount) == Amounts(a, WithdrawalAmount) + Amounts(b, WithdrawalAmount);
    assert Amounts(a + b, DepositAmount) == Amounts(a, DepositAmount) + Amounts(b, DepositAmount);
    SumAppend(Amounts(a, WithdrawalAmount), Amounts(b, WithdrawalAmount));
    SumAppend(Amounts(a, DepositAmount), Amounts(b, DepositAmount));
  }

  /** A row whose amounts are absent or null adds nothing to either total. */
  lemma NullAmountsAddNothing(rows: seq<Dict>, row: Dict)
    requires WellTyped(rows) && WellTyped(rows + [row])
    requires CellAt(row, "Withdrawal").Null? && CellAt(row, "Deposit").Null?
    ensures TotalWithdrawals(rows + [row]) == TotalWithdrawals(rows)
    ensures TotalDeposits(rows + [row]) == TotalDeposits(rows)
  {
    assert (rows + [row])[|rows|] == row;
    assert WellTyped([row]);
    TotalsSplit(rows, [row]);
    assert Amounts([row], WithdrawalAmount) == [0.0];
    assert Amounts([row], DepositAmount) == [0.0];
    assert [0.0][..0] == [];
  }

  // ---------------------------------------------------------------------------
  // The remaining figures
  // ---------------------------------------------------------------------------

  /** `df["Balance"].iloc[-1]`: the balance of the last row in extraction order; `None` for NaN. */
  function CurrentBalance(rows: seq<Dict>): (b: Option<real>)
    requires |rows| > 0
    ensures b.Some? <==> "Balance" in rows[|rows| - 1] && rows[|rows| - 1]["Balance"].Num?
    ensures b.Some? ==> b.value == rows[|rows| - 1]["Balance"].num
  {
    var c := CellAt(rows[|rows| - 1], "Balance");
    if c.Num? then Some(c.num) else None
  }

  /** The balance reported ignores every earlier row, whatever its date. */
  lemma BalanceIsLastRow(earlier: seq<Dict>, last: Dict)
    ensures CurrentBalance(earlier + [last]) == CurrentBalance([last])
  {
  }

  /** The row-wise `Withdrawal + Deposit` column. */
  function Movements(rows: seq<Dict>): (xs: seq<real>)
    requires WellTyped(rows)
    ensures |xs| == |rows|
    ensures forall i :: 0 <= i < |rows| ==>
      xs[i] == Amounts(rows, WithdrawalAmount)[i] + Amounts(rows, DepositAmount)[i]
  {
    var w := Amounts(rows, WithdrawalAmount);
    var d := Amounts(rows, DepositAmount);
    seq(|rows|, i requires 0 <= i < |rows| => w[i] + d[i])
  }

  /** The arithmetic mean of `n` values adding up to `total`. */
  function Mean(total: real, n: nat): real
    requires n > 0
  {
    total / (n as real)
  }

  /** `(df["Withdrawal"] + df["Deposit"]).mean()`, which equals the two totals over the row count. */
  function AverageTransaction(rows: seq<Dict>): (avg: real)
    requires WellTyped(rows) && |rows| > 0
    ensures avg == Mean(TotalWithdrawals(rows) + TotalDeposits(rows), |rows|)
  {
    SumPairwise(Amounts(rows, WithdrawalAmount), Amounts(rows, DepositAmount), Movements(rows));
    Mean(Sum(Movements(rows)), |rows|)
  }

  /** The largest value of a non-empty column. */
  function Max(xs: seq<real>): (m: real)
    requires |xs| > 0
    ensures m in xs
    ensures forall i :: 0 <= i < |xs| ==> xs[i] <= m
  {
    if |xs| == 1 then xs[0]
    else
      var m' := Max(xs[..|xs| - 1]);
      assert forall i :: 0 <= i < |xs| - 1 ==> xs[..|xs| - 1][i] == xs[i];
      if xs[|xs| - 1] > m' then xs[|xs| - 1] else m'
  }

  /** The category cells `value_counts` counts: nulls and absent keys are dropped. */
  function Categories(rows: seq<Dict>): (cs: seq<Cell>)
    ensures |cs| == |rows|
    ensures forall i :: 0 <= i < |rows| ==> cs[i] == CellAt(rows[i], "Category")
  {
    seq(|rows|, i requires 0 <= i < |rows| => CellAt(rows[i], "Category"))
  }

  /** How many rows carry category `v`. */
  function Count(cs: seq<Cell>, v: Cell): nat {
    multiset(cs)[v]
  }

  /** `best` is a category among `cs[..i]` counted at least as often as every category there. */
  predicate LeadsPrefix(cs: seq<Cell>, i: nat, best: Option<Cell>)
    requires i <= |cs|
  {
    && (best.None? ==> forall j :: 0 <= j < i ==> cs[j].Null?)
    && (best.Some? ==>
          && !best.value.Null?
          && best.value in cs[..i]
          && forall j :: 0 <= j < i && !cs[j].Null? ==> Count(cs, cs[j]) <= Count(cs, best.value))
  }

  /** Scans from `i`, replacing the leader only on a strictly higher count (first seen wins ties). */
  function TopFrom(cs: seq<Cell>, i: nat, best: Option<Cell>): (r: Option<Cell>)
    requires i <= |cs|
    requires LeadsPrefix(cs, i, best)
    ensures LeadsPrefix(cs, |cs|, r)
    decreases |cs| - i
  {
    if i == |cs| then best
    else if !cs[i].Null? && (best.None? || Count(cs, cs[i]) > Count(cs, best.value)) then
      assert cs[..i + 1] == cs[..i] + [cs[i]];
      TopFrom(cs, i + 1, Some(cs[i]))
    else
      assert cs[..i + 1] == cs[..i] + [cs[i]];
      TopFrom(cs, i + 1, best)
  }

  /**
   * `value_counts().idxmax()`: a category occurring in the table that no other
   * category outnumbers; `None` when no row has a category value, where the
   * source raises.
   */
  function TopCategory(rows: seq<Dict>): (r: Option<Cell>)
    ensures r.None? <==> forall i :: 0 <= i < |rows| ==> CellAt(rows[i], "Category").Null?
    ensures r.Some? ==> !r.value.Null? && exists i :: 0 <= i < |rows| && CellAt(rows[i], "Category") == r.value
    ensures r.Some? ==> forall v: Cell :: !v.Null? ==> Count(Categories(rows), v) <= Count(Categories(rows), r.value)
  {
    var cs := Categories(rows);
    var r := TopFrom(cs, 0, None);
    LeaderIsTop(cs, r);
    r
  }

  lemma LeaderIsTop(cs: seq<Cell>, r: Option<Cell>)
    requires LeadsPrefix(cs, |cs|, r)
    ensures r.None? <==> forall i :: 0 <= i < |cs| ==> cs[i].Null?
    ensures r.Some? ==> exists i :: 0 <= i < |cs| && cs[i] == r.value
    ensures r.Some? ==> forall v: Cell :: !v.Null? ==> Count(cs, v) <= Count(cs, r.value)
  {
    assert cs[..|cs|] == cs;
    if r.Some? {
      forall v: Cell | !v.Null? ensures Count(cs, v) <= Count(cs, r.value) {
        if v in cs {
          var j :| 0 <= j < |cs| && cs[j] == v;
        }
      }
      var j :| 0 <= j < |cs| && cs[j] == r.value;
    }
  }

  // ---------------------------------------------------------------------------
  // Assembly
  // ---------------------------------------------------------------------------

  /**
   * The figures `app.py` computes from the table. All but the top category
   * are shown as metrics; the top category is computed but never displayed,
   * and matters only because computing it raises on a table without category
   * values. The displayed date range is not modelled.
   */
  datatype Kpis = Kpis(
    totalWithdrawals: real,
    totalDeposits: real,
    currentBalance: Option<real>,
    transactionCount: nat,
    topCategory: Cell,
    avgTransaction: real,
    maxWithdrawal: real,
    maxDeposit: real)

  /** Why no figures are produced: columns are missing (the run stops), or no category value exists (`idxmax` raises). */
  datatype AssemblyError = MissingColumnsError(columns: seq<string>) | NoCategoryValues

  /** The figures of a non-empty, well-typed table whose top category is `top`. */
  function Figures(rows: seq<Dict>, top: Cell): (k: Kpis)
    requires WellTyped(rows) && |rows| > 0
    ensures k.transactionCount == |rows| && k.topCategory == top
    ensures k.currentBalance == CurrentBalance(rows)
    ensures k.totalWithdrawals == Sum(Amounts(rows, WithdrawalAmount))
    ensures k.totalDeposits == Sum(Amounts(rows, DepositAmount))
    ensures k.avgTransaction == Mean(k.totalWithdrawals + k.totalDeposits, k.transactionCount)
    ensures k.maxWithdrawal in Amounts(rows, WithdrawalAmount)
    ensures forall i :: 0 <= i < |rows| ==> Amounts(rows, WithdrawalAmount)[i] <= k.maxWithdrawal
    ensures k.maxDeposit in Amounts(rows, DepositAmount)
    ensures forall i :: 0 <= i < |rows| ==> Amounts(rows, DepositAmount)[i] <= k.maxDeposit
  {
    var w := Amounts(rows, WithdrawalAmount);
    var d := Amounts(rows, DepositAmount);
    var avg := AverageTransaction(rows);
    Kpis(Sum(w), Sum(d), CurrentBalance(rows), |rows|, top, avg, Max(w), Max(d))
  }

  /**
   * Validates the table and computes the figures. The run stops listing the
   * missing columns exactly when some expected column is absent from every
   * row; past that check the table is non-empty and every figure is defined.
   */
  function Assemble(rows: seq<Dict>): (r: Result<Kpis, AssemblyError>)
    requires WellTyped(rows)
    ensures r.Err? && r.error.MissingColumnsError? <==> exists c :: c in ExpectedColumns && !HasColumn(rows, c)
    ensures r.Err? && r.error.MissingColumnsError? ==> r.error.columns == MissingColumns(rows)
    ensures r.Err? && r.error.NoCategoryValues? <==>
      MissingColumns(rows) == [] && forall i :: 0 <= i < |rows| ==> CellAt(rows[i], "Category").Null?
    ensures r.Ok? ==> |rows| > 0 && TopCategory(rows) == Some(r.value.topCategory)
    ensures r.Ok? ==> r.value == Figures(rows, r.value.topCategory)
  {
    var missing := MissingColumns(rows);
    if missing != [] then
      Err(MissingColumnsError(missing))
    else
      assert HasColumn(rows, "Withdrawal");
      match TopCategory(rows)
      case None => Err(NoCategoryValues)
      case Some(top) => Ok(Figures(rows, top))
  }

  /** `m` is one of `xs` and no element exceeds it. */
  predicate IsMax(xs: seq<real>, m: real) {
    m in xs && forall i :: 0 <= i < |xs| ==> xs[i] <= m
  }

  /** The figures a table yields, one at a time. */
  predicate Reports(rows: seq<Dict>, k: Kpis) {
    && WellTyped(rows)
    && |rows| > 0
    && k.transactionCount == |rows|
    && k.totalWithdrawals == TotalWithdrawals(rows)
    && k.totalDeposits == TotalDeposits(rows)
    && k.avgTransaction == Mean(k.totalWithdrawals + k.totalDeposits, k.transactionCount)
    && k.currentBalance == CurrentBalance(rows)
    && TopCategory(rows) == Some(k.topCategory)
    && IsMax(Amounts(rows, WithdrawalAmount), k.maxWithdrawal)
    && IsMax(Amounts(rows, DepositAmount), k.maxDeposit)
  }

  /** What a successful assembly reports, one figure at a time. */
  lemma AssembledFigures(rows: seq<Dict>, k: Kpis)
    requires WellTyped(rows)
    requires Assemble(rows) == Ok(k)
    ensures Reports(rows, k)
  {
    assert k == Figures(rows, k.topCategory);
    assert IsMax(Amounts(rows, WithdrawalAmount), k.maxWithdrawal);
    assert IsMax(Amounts(rows, DepositAmount), k.maxDeposit);
  }

  // ---------------------------------------------------------------------------
  // Tables built from extracted Transactions
  // ---------------------------------------------------------------------------

  /** `extracted_data.get("transactions", [])`. */
  function TransactionRows(extracted: map<string, seq<Dict>>): seq<Dict> {
    if TransactionsKey in extracted then extracted[TransactionsKey] else []
  }

  /** The cells a Transaction's dictionary holds in the columns the figures read. */
  lemma TransactionRowCells(t: Transaction)
    ensures CellAt(TransactionToDict(t), "Withdrawal") == OptionalCell(t.withdrawal)
    ensures CellAt(TransactionToDict(t), "Deposit") == OptionalCell(t.deposit)
    ensures CellAt(TransactionToDict(t), "Balance") == Num(t.balance)
    ensures CellAt(TransactionToDict(t), "Category") == Text(t.category)
  {
    TransactionDictShape(t);
    assert TransactionFields[4] == "Withdrawal" && TransactionFields[5] == "Deposit";
    assert TransactionFields[6] == "Balance" && TransactionFields[7] == "Category";
  }

  /** Dictionaries of Transactions have every column, numeric amounts and a text category. */
  lemma TransactionDictsWellTyped(ts: seq<Transaction>)
    ensures WellTyped(TransactionsToDicts(ts))
    ensures forall i :: 0 <= i < |ts| ==> CellAt(TransactionsToDicts(ts)[i], "Category") == Text(ts[i].category)
  {
    var rows := TransactionsToDicts(ts);
    forall i | 0 <= i < |ts|
      ensures Numeric(CellAt(rows[i], "Withdrawal")) && Numeric(CellAt(rows[i], "Deposit"))
      ensures Numeric(CellAt(rows[i], "Balance"))
      ensures CellAt(rows[i], "Category") == Text(ts[i].category)
    {
      TransactionRowCells(ts[i]);
    }
  }

  /** A table of Transactions misses a column exactly when it has no rows, and then misses all six. */
  lemma TransactionTableColumns(ts: seq<Transaction>)
    ensures MissingColumns(TransactionsToDicts(ts)) == [] <==> |ts| > 0
    ensures ts == [] ==> MissingColumns(TransactionsToDicts(ts)) == ExpectedColumns
  {
    var rows := TransactionsToDicts(ts);
    if |ts| > 0 {
      assert forall c :: c in ExpectedColumns ==> c in rows[0];
    } else {
      assert rows == [];
      EmptyTableMissesAll();
    }
  }

  /** The withdrawals of a list of Transactions added up, an absent one counting 0. */
  function Withdrawn(ts: seq<Transaction>): real {
    if ts == [] then 0.0 else Withdrawn(ts[..|ts| - 1]) + ts[|ts| - 1].withdrawal.GetOr(0.0)
  }

  /** The deposits of a list of Transactions added up, an absent one counting 0. */
  function Deposited(ts: seq<Transaction>): real {
    if ts == [] then 0.0 else Deposited(ts[..|ts| - 1]) + ts[|ts| - 1].deposit.GetOr(0.0)
  }

  /** A one-row table of a Transaction: its totals are its own amounts, an absent one as 0. */
  lemma SingleTransactionTotals(t: Transaction)
    ensures WellTyped([TransactionToDict(t)])
    ensures TotalWithdrawals([TransactionToDict(t)]) == t.withdrawal.GetOr(0.0)
    ensures TotalDeposits([TransactionToDict(t)]) == t.deposit.GetOr(0.0)
  {
    var rows := [TransactionToDict(t)];
    var w, d := t.withdrawal.GetOr(0.0), t.deposit.GetOr(0.0);
    assert Amounts(rows, WithdrawalAmount) == [w];
    assert Amounts(rows, DepositAmount) == [d];
    SumSingle(w);
    SumSingle(d);
  }

  /** On a table of Transactions the totals add each amount, an absent one as 0. */
  lemma {:induction false} TransactionTotals(ts: seq<Transaction>)
    ensures WellTyped(TransactionsToDicts(ts))
    ensures TotalWithdrawals(TransactionsToDicts(ts)) == Withdrawn(ts)
    ensures TotalDeposits(TransactionsToDicts(ts)) == Deposited(ts)
    decreases |ts|
  {
    TransactionDictsWellTyped(ts);
    if ts == [] {
      assert TransactionsToDicts(ts) == [];
      assert Amounts([], WithdrawalAmount) == [];
      assert Amounts([], DepositAmount) == [];
    } else {
      var n := |ts| - 1;
      TransactionTotals(ts[..n]);
      SingleTransactionTotals(ts[n]);
      TotalsSplit(TransactionsToDicts(ts[..n]), [TransactionToDict(ts[n])]);
    }
  }

  /** The category of each Transaction, in order. */
  function CategoryNames(ts: seq<Transaction>): (names: seq<string>)
    ensures |names| == |ts|
    ensures forall i :: 0 <= i < |ts| ==> names[i] == ts[i].category
  {
    seq(|ts|, i requires 0 <= i < |ts| => ts[i].category)
  }

  /** The count, totals and average of a table of Transactions, stated on the Transactions. */
  predicate TotalsOf(ts: seq<Transaction>, k: Kpis) {
    && |ts| > 0
    && k.transactionCount == |ts|
    && k.totalWithdrawals == Withdrawn(ts)
    && k.totalDeposits == Deposited(ts)
    && k.avgTransaction == Mean(k.totalWithdrawals + k.totalDeposits, k.transactionCount)
  }

  /** The balance and top category of a table of Transactions, stated on the Transactions. */
  predicate BalanceAndCategoryOf(ts: seq<Transaction>, k: Kpis) {
    && |ts| > 0
    && k.currentBalance == Some(ts[|ts| - 1].balance)
    && k.topCategory.Text? && k.topCategory.text in CategoryNames(ts)
    && forall c :: c in CategoryNames(ts) ==> multiset(CategoryNames(ts))[c] <= multiset(CategoryNames(ts))[k.topCategory.text]
  }

  /** Each Transaction's withdrawal, an absent one as 0. */
  function WithdrawalsOf(ts: seq<Transaction>): (xs: seq<real>)
    ensures |xs| == |ts|
    ensures forall i :: 0 <= i < |ts| ==> xs[i] == ts[i].withdrawal.GetOr(0.0)
  {
    seq(|ts|, i requires 0 <= i < |ts| => ts[i].withdrawal.GetOr(0.0))
  }

  /** Each Transaction's deposit, an absent one as 0. */
  function DepositsOf(ts: seq<Transaction>): (xs: seq<real>)
    ensures |xs| == |ts|
    ensures forall i :: 0 <= i < |ts| ==> xs[i] == ts[i].deposit.GetOr(0.0)
  {
    seq(|ts|, i requires 0 <= i < |ts| => ts[i].deposit.GetOr(0.0))
  }

  /** The running totals of Transactions are the sums of their per-Transaction amounts. */
  lemma {:induction false} TotalsAreSums(ts: seq<Transaction>)
    ensures Withdrawn(ts) == Sum(WithdrawalsOf(ts))
    ensures Deposited(ts) == Sum(DepositsOf(ts))
  {
    if ts != [] {
      var n := |ts| - 1;
      TotalsAreSums(ts[..n]);
      assert WithdrawalsOf(ts)[..n] == WithdrawalsOf(ts[..n]);
      assert DepositsOf(ts)[..n] == DepositsOf(ts[..n]);
    }
  }

  /** The largest withdrawal and deposit of a table of Transactions, stated on the Transactions. */
  predicate MaximaOf(ts: seq<Transaction>, k: Kpis) {
    IsMax(WithdrawalsOf(ts), k.maxWithdrawal) && IsMax(DepositsOf(ts), k.maxDeposit)
  }

  /** The figures of a table of Transactions, stated on the Transactions themselves. */
  predicate FiguresOf(ts: seq<Transaction>, k: Kpis) {
    TotalsOf(ts, k) && BalanceAndCategoryOf(ts, k) && MaximaOf(ts, k)
  }

  /** The balance column of a table of Transactions ends in the last Transaction's balance. */
  lemma TransactionBalance(ts: seq<Transaction>)
    requires |ts| > 0
    ensures CurrentBalance(TransactionsToDicts(ts)) == Some(ts[|ts| - 1].balance)
  {
    var rows := TransactionsToDicts(ts);
    var n := |ts| - 1;
    assert rows[n] == TransactionToDict(ts[n]);
    TransactionDictShape(ts[n]);
  }

  /** A top category of a table of Transactions is the category text of one of them, the `i`-th. */
  lemma TransactionCategory(ts: seq<Transaction>, top: Cell) returns (i: nat)
    requires TopCategory(TransactionsToDicts(ts)) == Some(top)
    ensures i < |ts| && top == Text(ts[i].category)
  {
    var rows := TransactionsToDicts(ts);
    i :| 0 <= i < |rows| && CellAt(rows[i], "Category") == top;
    assert rows[i] == TransactionToDict(ts[i]);
    TransactionDictShape(ts[i]);
  }

  /** Counting category cells that are all texts counts the texts. */
  lemma {:induction false} TextCounts(cs: seq<Cell>, names: seq<string>, c: string)
    requires |cs| == |names|
    requires forall i :: 0 <= i < |cs| ==> cs[i] == Text(names[i])
    ensures Count(cs, Text(c)) == multiset(names)[c]
  {
    if cs != [] {
      assert cs == [cs[0]] + cs[1..];
      assert names == [names[0]] + names[1..];
      TextCounts(cs[1..], names[1..], c);
    }
  }

  /** No category of a table of Transactions occurs more often than its top category. */
  lemma TransactionCategoryCounts(ts: seq<Transaction>, top: Cell)
    requires TopCategory(TransactionsToDicts(ts)) == Some(top)
    ensures top.Text?
    ensures forall c :: multiset(CategoryNames(ts))[c] <= multiset(CategoryNames(ts))[top.text]
  {
    var rows := TransactionsToDicts(ts);
    var cs := Categories(rows);
    var i := TransactionCategory(ts, top);
    TransactionDictsWellTyped(ts);
    forall c ensures multiset(CategoryNames(ts))[c] <= multiset(CategoryNames(ts))[top.text] {
      TextCounts(cs, CategoryNames(ts), c);
      TextCounts(cs, CategoryNames(ts), top.text);
      assert !Text(c).Null?;
    }
  }

  /** The count, totals and average of a table of Transactions, read off the Transactions. */
  lemma TableTotals(ts: seq<Transaction>, k: Kpis)
    requires Reports(TransactionsToDicts(ts), k)
    ensures TotalsOf(ts, k)
  {
    TransactionTotals(ts);
  }

  /** The balance and top category of a table of Transactions, read off the Transactions. */
  lemma TableBalanceAndCategory(ts: seq<Transaction>, k: Kpis)
    requires Reports(TransactionsToDicts(ts), k)
    ensures BalanceAndCategoryOf(ts, k)
  {
    TransactionBalance(ts);
    var i := TransactionCategory(ts, k.topCategory);
    assert CategoryNames(ts)[i] == k.topCategory.text;
    TransactionCategoryCounts(ts, k.topCategory);
  }

  /** The cleaned amount columns of a table of Transactions are their amounts, an absent one as 0. */
  lemma TransactionAmounts(ts: seq<Transaction>)
    ensures WellTyped(TransactionsToDicts(ts))
    ensures Amounts(TransactionsToDicts(ts), WithdrawalAmount) == WithdrawalsOf(ts)
    ensures Amounts(TransactionsToDicts(ts), DepositAmount) == DepositsOf(ts)
  {
    var rows := TransactionsToDicts(ts);
    TransactionDictsWellTyped(ts);
    forall i | 0 <= i < |ts|
      ensures Amounts(rows, WithdrawalAmount)[i] == WithdrawalsOf(ts)[i]
      ensures Amounts(rows, DepositAmount)[i] == DepositsOf(ts)[i]
    {
      assert rows[i] == TransactionToDict(ts[i]);
      TransactionDictShape(ts[i]);
    }
  }

  /** The largest amounts of a table of Transactions, read off the Transactions. */
  lemma TableMaxima(ts: seq<Transaction>, k: Kpis)
    requires Reports(TransactionsToDicts(ts), k)
    ensures MaximaOf(ts, k)
  {
    TransactionAmounts(ts);
  }

  /** Assembling a table of Transactions gives figures read off the Transactions. */
  lemma AssembledTransactions(ts: seq<Transaction>, k: Kpis)
    requires WellTyped(TransactionsToDicts(ts))
    requires Assemble(TransactionsToDicts(ts)) == Ok(k)
    ensures FiguresOf(ts, k)
  {
    AssembledFigures(TransactionsToDicts(ts), k);
    TableTotals(ts, k);
    TableBalanceAndCategory(ts, k);
    TableMaxima(ts, k);
  }
}

=== FILE: report.dfy ===
/**
 * The two result sections of `app.py`: what is written under "Anomaly Report"
 * and under "Financial Advice" for the optional records the pipeline returns.
 * Python truthiness decides every branch: a string shows when present and
 * non-empty, a list when non-empty, a dictionary entry when it has a key.
 */
module Report {
  import opened Wrappers
  import opened Schema

  /** One element written to the page, in order. */
  datatype Element =
    | Markdown(text: string)          // `st.markdown`
    | Info(text: string)              // `st.info`
    | Write(text: string)             // `st.write`
    | AnomalyBullet(entry: Dict)      // `st.write(f"- {anomaly}")`
    | RecommendationBullet(text: string) // `st.write(f"- {rec}")`

  const NoAnomalies: string := "No anomalies detected."
  const NoAdvice: string := "No financial advice available."

  /** Truthiness of an optional string. */
  predicate Shown(s: Option<string>) {
    s.Some? && s.value != ""
  }

  /** Truthiness of an optional list of strings. */
  predicate ShownList(xs: Option<seq<string>>) {
    xs.Some? && xs.value != []
  }

  /** `[a for a in anomalies if a]`: the entries with at least one key, in order. */
  function NonEmptyEntries(xs: seq<Dict>): (r: seq<Dict>)
    ensures forall e :: e in r <==> e in xs && e != map[]
    ensures forall e :: multiset(r)[e] == if e == map[] then 0 else multiset(xs)[e]
    ensures |r| <= |xs|
  {
    if xs == [] then []
    else
      assert xs == [xs[0]] + xs[1..];
      if xs[0] != map[] then [xs[0]] + NonEmptyEntries(xs[1..])
      else NonEmptyEntries(xs[1..])
  }

  /** Filtering a report split in two filters each part, keeping the parts in order. */
  lemma {:induction false} NonEmptyEntriesAppend(a: seq<Dict>, b: seq<Dict>)
    ensures NonEmptyEntries(a + b) == NonEmptyEntries(a) + NonEmptyEntries(b)
  {
    if a == [] {
      assert a + b == b;
    } else {
      assert (a + b)[1..] == a[1..] + b;
      NonEmptyEntriesAppend(a[1..], b);
    }
  }

  /** A single entry is kept exactly when it has a key. */
  lemma NonEmptyEntry(x: Dict)
    ensures NonEmptyEntries([x]) == if x == map[] then [] else [x]
  {
    assert [x][1..] == [];
  }

  /** The entries listed as anomaly bullets, in page order. */
  function Bulleted(es: seq<Element>): seq<Dict> {
    if es == [] then []
    else if es[0].AnomalyBullet? then [es[0].entry] + Bulleted(es[1..])
    else Bulleted(es[1..])
  }

  /** The recommendations listed as bullets, in page order. */
  function Recommended(es: seq<Element>): seq<string> {
    if es == [] then []
    else if es[0].RecommendationBullet? then [es[0].text] + Recommended(es[1..])
    else Recommended(es[1..])
  }

  lemma {:induction false} AnomaliesAppend(a: seq<Element>, b: seq<Element>)
    ensures Bulleted(a + b) == Bulleted(a) + Bulleted(b)
  {
    if a == [] {
      assert a + b == b;
    } else {
      AnomaliesAppend(a[1..], b);
      assert (a + b)[0] == a[0];
      assert (a + b)[1..] == a[1..] + b;
    }
  }

  lemma {:induction false} RecommendationsAppend(a: seq<Element>, b: seq<Element>)
    ensures Recommended(a + b) == Recommended(a) + Recommended(b)
  {
    if a == [] {
      assert a + b == b;
    } else {
      RecommendationsAppend(a[1..], b);
      assert (a + b)[0] == a[0];
      assert (a + b)[1..] == a[1..] + b;
    }
  }

  /** Both kinds of bullet list of a concatenation are the concatenations of the lists. */
  lemma BulletedAppend(a: seq<Element>, b: seq<Element>)
    ensures Bulleted(a + b) == Bulleted(a) + Bulleted(b)
    ensures Recommended(a + b) == Recommended(a) + Recommended(b)
  {
    AnomaliesAppend(a, b);
    RecommendationsAppend(a, b);
  }

  function AnomalyBullets(xs: seq<Dict>): (r: seq<Element>)
    ensures |r| == |xs|
    ensures forall i :: 0 <= i < |xs| ==> r[i] == AnomalyBullet(xs[i])
  {
    seq(|xs|, i requires 0 <= i < |xs| => AnomalyBullet(xs[i]))
  }

  function RecommendationBullets(xs: seq<string>): (r: seq<Element>)
    ensures |r| == |xs|
    ensures forall i :: 0 <= i < |xs| ==> r[i] == RecommendationBullet(xs[i])
  {
    seq(|xs|, i requires 0 <= i < |xs| => RecommendationBullet(xs[i]))
  }

  lemma {:induction false} BulletsListed(xs: seq<Dict>, ys: seq<string>)
    ensures Bulleted(AnomalyBullets(xs)) == xs
    ensures Recommended(AnomalyBullets(xs)) == []
    ensures Bulleted(RecommendationBullets(ys)) == []
    ensures Recommended(RecommendationBullets(ys)) == ys
  {
    if xs != [] {
      BulletsListed(xs[1..], ys);
      assert AnomalyBullets(xs)[1..] == AnomalyBullets(xs[1..]);
    }
    if ys != [] {
      BulletsListed(xs, ys[1..]);
      assert RecommendationBullets(ys)[1..] == RecommendationBullets(ys[1..]);
    }
  }

  /** A labelled block: the bold label, then the text in the given style, when the text is truthy. */
  function Labelled(heading: string, text: Option<string>, asInfo: bool): seq<Element> {
    if Shown(text) then
      [Markdown(heading), if asInfo then Info(text.value) else Write(text.value)]
    else []
  }

  // ---------------------------------------------------------------------------
  // Anomaly report
  // ---------------------------------------------------------------------------

  /** The section writes "No anomalies detected." (once, at its end) for this report. */
  predicate ReportsNoAnomalies(report: Option<AnomalyDetection>) {
    || report.None?
    || (report.value.anomalies != [] && NonEmptyEntries(report.value.anomalies) == [])
    || (report.value.anomalies == [] && !Shown(report.value.summary) && !Shown(report.value.advice))
  }

  /** The body of the anomaly section before any fallback message. */
  function AnomalyBody(r: AnomalyDetection): seq<Element> {
    var valid := NonEmptyEntries(r.anomalies);
    Labelled("**Summary:**", r.summary, true)
    + Labelled("**Advice:**", r.advice, false)
    + (if r.anomalies != [] && valid != [] then [Markdown("**Anomalies:**")] + AnomalyBullets(valid) else [])
  }

  /**
   * The anomaly section: summary, advice, then the non-empty entries as
   * bullets; "No anomalies detected." ends it exactly when the report is
   * absent, when it has entries but every one is empty, or when it shows
   * nothing at all.
   */
  function AnomalySection(report: Option<AnomalyDetection>): (es: seq<Element>)
    ensures report.None? ==> es == [Info(NoAnomalies)]
    ensures report.Some? ==>
      es == AnomalyBody(report.value) + (if ReportsNoAnomalies(report) then [Info(NoAnomalies)] else [])
  {
    match report
    case None => [Info(NoAnomalies)]
    case Some(r) =>
      var valid := NonEmptyEntries(r.anomalies);
      var fallback :=
        if r.anomalies != [] && valid == [] then [Info(NoAnomalies)]
        else if !(Shown(r.advice) || Shown(r.summary) || r.anomalies != []) then [Info(NoAnomalies)]
        else [];
      AnomalyBody(r) + fallback
  }

  /** No bullet is an info box. */
  lemma NoInfoAmongBullets(xs: seq<Dict>, ys: seq<string>, t: string)
    ensures multiset(AnomalyBullets(xs))[Info(t)] == 0
    ensures multiset(RecommendationBullets(ys))[Info(t)] == 0
  {
    assert Info(t) !in AnomalyBullets(xs);
    assert Info(t) !in RecommendationBullets(ys);
  }

  /** A sequence without bullets lists nothing. */
  lemma {:induction false} NoBulletsListed(es: seq<Element>)
    requires forall i :: 0 <= i < |es| ==> !es[i].AnomalyBullet? && !es[i].RecommendationBullet?
    ensures Bulleted(es) == [] && Recommended(es) == []
  {
    if es != [] {
      NoBulletsListed(es[1..]);
    }
  }

  /** The only info box a labelled block can hold is its own text. */
  lemma LabelledInfo(heading: string, text: Option<string>, asInfo: bool, t: string)
    ensures multiset(Labelled(heading, text, asInfo))[Info(t)] ==
      if asInfo && text == Some(t) && t != "" then 1 else 0
  {
  }

  /** The body of an anomaly section holds the fallback sentence only as the report's own summary. */
  lemma AnomalyBodyInfo(r: AnomalyDetection)
    ensures multiset(AnomalyBody(r))[Info(NoAnomalies)] == if r.summary == Some(NoAnomalies) then 1 else 0
  {
    var valid := NonEmptyEntries(r.anomalies);
    var s1 := Labelled("**Summary:**", r.summary, true);
    var s2 := Labelled("**Advice:**", r.advice, false);
    var s3 := if r.anomalies != [] && valid != [] then [Markdown("**Anomalies:**")] + AnomalyBullets(valid) else [];
    assert AnomalyBody(r) == s1 + s2 + s3;
    LabelledInfo("**Summary:**", r.summary, true, NoAnomalies);
    LabelledInfo("**Advice:**", r.advice, false, NoAnomalies);
    NoInfoAmongBullets(valid, [], NoAnomalies);
    assert multiset(s3)[Info(NoAnomalies)] == 0;
  }

  /**
   * "No anomalies detected." is written once, at the end, exactly in the three
   * fallback cases, and never more than once unless the report's own summary
   * happens to be that very sentence.
   */
  lemma AnomalyFallback(report: Option<AnomalyDetection>)
    ensures multiset(AnomalySection(report))[Info(NoAnomalies)] ==
      (if ReportsNoAnomalies(report) then 1 else 0)
      + (if report.Some? && report.value.summary == Some(NoAnomalies) then 1 else 0)
    ensures ReportsNoAnomalies(report) ==> AnomalySection(report)[|AnomalySection(report)| - 1] == Info(NoAnomalies)
  {
    if report.Some? {
      AnomalyBodyInfo(report.value);
    }
  }

  /** A labelled block lists no bullets. */
  lemma LabelledListsNothing(heading: string, text: Option<string>, asInfo: bool)
    ensures Bulleted(Labelled(heading, text, asInfo)) == []
    ensures Recommended(Labelled(heading, text, asInfo)) == []
  {
    NoBulletsListed(Labelled(heading, text, asInfo));
  }

  /** The body of an anomaly section lists exactly the non-empty entries, and no recommendation. */
  lemma AnomalyBodyListed(r: AnomalyDetection)
    ensures Bulleted(AnomalyBody(r)) == NonEmptyEntries(r.anomalies)
    ensures Recommended(AnomalyBody(r)) == []
  {
    var valid := NonEmptyEntries(r.anomalies);
    var s1 := Labelled("**Summary:**", r.summary, true);
    var s2 := Labelled("**Advice:**", r.advice, false);
    var s3 := if r.anomalies != [] && valid != [] then [Markdown("**Anomalies:**")] + AnomalyBullets(valid) else [];
    assert AnomalyBody(r) == s1 + s2 + s3;
    LabelledListsNothing("**Summary:**", r.summary, true);
    LabelledListsNothing("**Advice:**", r.advice, false);
    BulletedAppend(s1, s2);
    BulletedAppend(s1 + s2, s3);
    BulletsListed(valid, []);
    NoBulletsListed([Markdown("**Anomalies:**")]);
    NoBulletsListed([]);
    BulletedAppend([Markdown("**Anomalies:**")], AnomalyBullets(valid));
  }

  /** Exactly the non-empty anomaly entries are listed, each once, in report order. */
  lemma AnomaliesListed(report: Option<AnomalyDetection>)
    ensures Bulleted(AnomalySection(report)) ==
      if report.Some? then NonEmptyEntries(report.value.anomalies) else []
    ensures Recommended(AnomalySection(report)) == []
  {
    match report
    case None =>
      NoBulletsListed([Info(NoAnomalies)]);
    case Some(r) =>
      var fb := if ReportsNoAnomalies(report) then [Info(NoAnomalies)] else [];
      AnomalyBodyListed(r);
      NoBulletsListed(fb);
      BulletedAppend(AnomalyBody(r), fb);
  }

  // ---------------------------------------------------------------------------
  // Financial advice
  // ---------------------------------------------------------------------------

  /** The section writes "No financial advice available." for this record. */
  predicate ReportsNoAdvice(advice: Option<FinancialAdvisor>) {
    || advice.None?
    || (advice.value.advice == "" && !Shown(advice.value.summary) && !ShownList(advice.value.recommendations))
  }

  /** The body of the advice section before any fallback message. */
  function AdviceBody(a: FinancialAdvisor): seq<Element> {
    Labelled("**Summary:**", a.summary, true)
    + Labelled("**Advice:**", Some(a.advice), false)
    + (if ShownList(a.recommendations)
       then [Markdown("**Recommendations:**")] + RecommendationBullets(a.recommendations.value)
       else [])
  }

  /**
   * The advice section: summary, advice, then each recommendation as a bullet;
   * "No financial advice available." ends it exactly when the record is
   * absent or has nothing to show.
   */
  function AdviceSection(advice: Option<FinancialAdvisor>): (es: seq<Element>)
    ensures advice.None? ==> es == [Info(NoAdvice)]
    ensures advice.Some? ==>
      es == AdviceBody(advice.value) + (if ReportsNoAdvice(advice) then [Info(NoAdvice)] else [])
  {
    match advice
    case None => [Info(NoAdvice)]
    case Some(a) =>
      var fallback :=
        if !(Shown(Some(a.advice)) || Shown(a.summary) || ShownList(a.recommendations))
        then [Info(NoAdvice)] else [];
      AdviceBody(a) + fallback
  }

  /**
   * "No financial advice available." is written exactly in the fallback
   * cases, at the end, and at most once unless the record's own summary is
   * that very sentence.
   */
  lemma AdviceFallback(advice: Option<FinancialAdvisor>)
    ensures multiset(AdviceSection(advice))[Info(NoAdvice)] ==
      (if ReportsNoAdvice(advice) then 1 else 0)
      + (if advice.Some? && advice.value.summary == Some(NoAdvice) then 1 else 0)
    ensures ReportsNoAdvice(advice) ==> AdviceSection(advice)[|AdviceSection(advice)| - 1] == Info(NoAdvice)
  {
    if advice.Some? {
      var a := advice.value;
      LabelledInfo("**Summary:**", a.summary, true, NoAdvice);
      LabelledInfo("**Advice:**", Some(a.advice), false, NoAdvice);
      if ShownList(a.recommendations) {
        NoInfoAmongBullets([], a.recommendations.value, NoAdvice);
      }
    }
  }

  /** A heading followed by bullets lists exactly the bullets. */
  lemma HeadedBullets(heading: string, xs: seq<Dict>, ys: seq<string>)
    ensures Bulleted([Markdown(heading)] + AnomalyBullets(xs)) == xs
    ensures Recommended([Markdown(heading)] + RecommendationBullets(ys)) == ys
    ensures Bulleted([Markdown(heading)] + RecommendationBullets(ys)) == []
  {
    NoBulletsListed([Markdown(heading)]);
    BulletsListed(xs, ys);
    BulletedAppend([Markdown(heading)], AnomalyBullets(xs));
    BulletedAppend([Markdown(heading)], RecommendationBullets(ys));
  }

  /** Every recommendation is listed, in order, exactly when the list is non-empty; nothing else is. */
  lemma RecommendationsListed(advice: Option<FinancialAdvisor>)
    ensures Recommended(AdviceSection(advice)) ==
      if advice.Some? && ShownList(advice.value.recommendations) then advice.value.recommendations.value else []
    ensures Bulleted(AdviceSection(advice)) == []
  {
    match advice
    case None =>
      NoBulletsListed([Info(NoAdvice)]);
    case Some(a) =>
      var s1 := Labelled("**Summary:**", a.summary, true);
      var s2 := Labelled("**Advice:**", Some(a.advice), false);
      var s3 := if ShownList(a.recommendations)
        then [Markdown("**Recommendations:**")] + RecommendationBullets(a.recommendations.value) else [];
      var fb := if ReportsNoAdvice(advice) then [Info(NoAdvice)] else [];
      var body := s1 + s2 + s3;
      assert AdviceBody(a) == body;
      NoBulletsListed(s1);
      NoBulletsListed(s2);
      NoBulletsListed(fb);
      if ShownList(a.recommendations) {
        HeadedBullets("**Recommendations:**", [], a.recommendations.value);
      } else {
        NoBulletsListed(s3);
      }
      BulletedAppend(s1, s2);
      BulletedAppend(s1 + s2, s3);
      BulletedAppend(body, fb);
  }
}

=== FILE: schema.dfy ===
/**
 * The records the pipeline exchanges (`src/prompt_engineering/schema.py`):
 * a Transaction, the extractor's list of them, the anomaly report, the
 * financial advice and the pipeline state, together with the dictionary
 * form (`.dict()`) in which extracted transactions are stored in the state.
 */
module Schema {
  import opened Wrappers

  /** A JSON-like scalar as it appears in a dictionary: `None`, a number or a string. */
  datatype Cell = Null | Num(num: real) | Text(text: string)

  /** A `Dict[str, Any]` whose values are scalars: a transaction row or an anomaly entry. */
  type Dict = map<string, Cell>

  /** One ledger entry. Withdrawal and deposit are optional; every other field is required. */
  datatype Transaction = Transaction(
    transactionDate: string,
    postedDate: string,
    transactionId: string,
    description: string,
    withdrawal: Option<real>,
    deposit: Option<real>,
    balance: real,
    category: string)

  /** The extractor's structured output: the transactions in extraction order. */
  datatype DataExtractor = DataExtractor(transactions: seq<Transaction>)

  /** The anomaly detector's structured output; every field may be omitted. */
  datatype AnomalyDetection = AnomalyDetection(
    anomalies: seq<Dict>,
    summary: Option<string>,
    advice: Option<string>)

  /** The financial advisor's structured output; `advice` is required. */
  datatype FinancialAdvisor = FinancialAdvisor(
    advice: string,
    summary: Option<string>,
    recommendations: Option<seq<string>>)

  /** The state threaded through the pipeline. */
  datatype StateSchema = StateSchema(
    input: string,
    extractedData: map<string, seq<Dict>>,
    anomalyReport: Option<AnomalyDetection>,
    financialAdvice: Option<FinancialAdvisor>)

  /** The dictionary keys of a Transaction, in declaration order. */
  const TransactionFields: seq<string> :=
    ["Transaction_Date", "Posted_Date", "Transaction_ID", "Description",
     "Withdrawal", "Deposit", "Balance", "Category"]

  /** The key under which `.dict()` stores the extractor's transaction list. */
  const TransactionsKey: string := "transactions"

  // ---------------------------------------------------------------------------
  // Construction with the declared defaults
  // ---------------------------------------------------------------------------

  function NewTransaction(
    transactionDate: string, postedDate: string, transactionId: string,
    description: string, balance: real, category: string,
    withdrawal: Option<real> := None, deposit: Option<real> := None): Transaction
  {
    Transaction(transactionDate, postedDate, transactionId, description,
                withdrawal, deposit, balance, category)
  }

  function NewAnomalyDetection(
    anomalies: seq<Dict> := [], summary: Option<string> := None,
    advice: Option<string> := None): AnomalyDetection
  {
    AnomalyDetection(anomalies, summary, advice)
  }

  function NewFinancialAdvisor(
    advice: string, summary: Option<string> := None,
    recommendations: Option<seq<string>> := Some([])): FinancialAdvisor
  {
    FinancialAdvisor(advice, summary, recommendations)
  }

  function NewState(
    input: string, extractedData: map<string, seq<Dict>> := map[],
    anomalyReport: Option<AnomalyDetection> := None,
    financialAdvice: Option<FinancialAdvisor> := None): StateSchema
  {
    StateSchema(input, extractedData, anomalyReport, financialAdvice)
  }

  /** Omitted optional fields take their declared defaults; the given fields are kept. */
  lemma SchemaDefaults(
    transactionDate: string, postedDate: string, transactionId: string,
    description: string, balance: real, category: string,
    input: string, advice: string)
    ensures NewTransaction(transactionDate, postedDate, transactionId, description, balance, category)
      == Transaction(transactionDate, postedDate, transactionId, description, None, None, balance, category)
    ensures NewAnomalyDetection() == AnomalyDetection([], None, None)
    ensures NewFinancialAdvisor(advice).summary == None
    ensures NewFinancialAdvisor(advice).recommendations == Some([])
    ensures NewState(input) == StateSchema(input, map[], None, None)
  {
  }

  // ---------------------------------------------------------------------------
  // Dictionary form (`.dict()`) and validation back into a Transaction
  // ---------------------------------------------------------------------------

  /** An optional number as a dictionary value: absent numbers become `None`. */
  function OptionalCell(x: Option<real>): Cell {
    match x
    case Some(v) => Num(v)
    case None => Null
  }

  /** `Transaction.dict()`: every declared field becomes a key, absent amounts become `None`. */
  function TransactionToDict(t: Transaction): Dict {
    map[
      "Transaction_Date" := Text(t.transactionDate),
      "Posted_Date" := Text(t.postedDate),
      "Transaction_ID" := Text(t.transactionId),
      "Description" := Text(t.description),
      "Withdrawal" := OptionalCell(t.withdrawal),
      "Deposit" := OptionalCell(t.deposit),
      "Balance" := Num(t.balance),
      "Category" := Text(t.category)]
  }

  /** The dictionary has exactly the declared keys; absent amounts appear as `None`. */
  lemma TransactionDictShape(t: Transaction)
    ensures TransactionToDict(t).Keys == set k | k in TransactionFields
    ensures TransactionToDict(t)["Transaction_Date"] == Text(t.transactionDate)
    ensures TransactionToDict(t)["Posted_Date"] == Text(t.postedDate)
    ensures TransactionToDict(t)["Transaction_ID"] == Text(t.transactionId)
    ensures TransactionToDict(t)["Description"] == Text(t.description)
    ensures TransactionToDict(t)["Withdrawal"] == OptionalCell(t.withdrawal)
    ensures TransactionToDict(t)["Deposit"] == OptionalCell(t.deposit)
    ensures TransactionToDict(t)["Balance"] == Num(t.balance)
    ensures TransactionToDict(t)["Category"] == Text(t.category)
  {
  }

  function TransactionsToDicts(ts: seq<Transaction>): (ds: seq<Dict>)
    ensures |ds| == |ts|
    ensures forall i :: 0 <= i < |ts| ==> ds[i] == TransactionToDict(ts[i])
  {
    if ts == [] then []
    else TransactionsToDicts(ts[..|ts| - 1]) + [TransactionToDict(ts[|ts| - 1])]
  }

  /** `DataExtractor.dict()`: a single key holding the transaction dictionaries. */
  function ExtractorToDict(d: DataExtractor): (m: map<string, seq<Dict>>)
    ensures m.Keys == {TransactionsKey}
    ensures m[TransactionsKey] == TransactionsToDicts(d.transactions)
  {
    map[TransactionsKey := TransactionsToDicts(d.transactions)]
  }

  /** Why a dictionary is not a Transaction: a required key is absent, or a value has the wrong type. */
  datatype ValidationError = MissingField(field: string) | WrongType(field: string)

  /** The error, if any, for a required string field. */
  function CheckText(d: Dict, key: string): (e: seq<ValidationError>)
    ensures e == [] <==> key in d && d[key].Text?
    ensures |e| <= 1
    ensures forall x :: x in e ==> x.field == key
  {
    if key !in d then [MissingField(key)]
    else if d[key].Text? then []
    else [WrongType(key)]
  }

  /** The error, if any, for a required number field (`None` is not a number). */
  function CheckNum(d: Dict, key: string): (e: seq<ValidationError>)
    ensures e == [] <==> key in d && d[key].Num?
    ensures |e| <= 1
    ensures forall x :: x in e ==> x.field == key
  {
    if key !in d then [MissingField(key)]
    else if d[key].Num? then []
    else [WrongType(key)]
  }

  /** The error, if any, for an optional number field: it may be absent or `None`. */
  function CheckOptionalNum(d: Dict, key: string): (e: seq<ValidationError>)
    ensures e == [] <==> key !in d || !d[key].Text?
    ensures |e| <= 1
    ensures forall x :: x in e ==> x.field == key
  {
    if key in d && d[key].Text? then [WrongType(key)] else []
  }

  /** The value of an optional number field; absent and `None` both give the default, `None`. */
  function OptionalNum(d: Dict, key: string): Option<real> {
    if key in d && d[key].Num? then Some(d[key].num) else None
  }

  /** A dictionary whose values already have the declared types of a Transaction. */
  predicate ConformsToTransaction(d: Dict) {
    && "Transaction_Date" in d && d["Transaction_Date"].Text?
    && "Posted_Date" in d && d["Posted_Date"].Text?
    && "Transaction_ID" in d && d["Transaction_ID"].Text?
    && "Description" in d && d["Description"].Text?
    && ("Withdrawal" !in d || !d["Withdrawal"].Text?)
    && ("Deposit" !in d || !d["Deposit"].Text?)
    && "Balance" in d && d["Balance"].Num?
    && "Category" in d && d["Category"].Text?
  }

  /** No two errors name the same field. */
  predicate DistinctFields(e: seq<ValidationError>) {
    forall i, j :: 0 <= i < j < |e| ==> e[i].field != e[j].field
  }

  /** Errors about one field, put before errors about other fields, keep the fields distinct. */
  lemma PrependDistinct(a: seq<ValidationError>, key: string, b: seq<ValidationError>, later: seq<string>)
    requires |a| <= 1 && forall x :: x in a ==> x.field == key
    requires key !in later && forall x :: x in b ==> x.field in later
    requires DistinctFields(b)
    ensures DistinctFields(a + b)
  {
    if a != [] {
      forall j | 0 < j < |a + b| ensures (a + b)[0].field != (a + b)[j].field {
        assert (a + b)[j] == b[j - 1];
        assert b[j - 1] in b;
      }
    }
  }

  /** The field errors of a dictionary, in declaration order. */
  function ValidationErrors(d: Dict): (e: seq<ValidationError>)
    ensures e == [] <==> ConformsToTransaction(d)
    ensures |e| <= |TransactionFields|
    ensures forall x :: x in e ==> x.field in TransactionFields
  {
    CheckText(d, "Transaction_Date") + (CheckText(d, "Posted_Date")
    + (CheckText(d, "Transaction_ID") + (CheckText(d, "Description")
    + (CheckOptionalNum(d, "Withdrawal") + (CheckOptionalNum(d, "Deposit")
    + (CheckNum(d, "Balance") + CheckText(d, "Category")))))))
  }

  /**
   * Each declared field is absent from the list of fields declared after it:
   * the pairwise differences of `FieldNamesDiffer`, restated as list
   * membership, the form `PrependDistinct` asks for.
   */
  lemma FieldNamesDistinct()
    ensures "Balance" !in ["Category"]
    ensures "Deposit" !in ["Balance", "Category"]
    ensures "Withdrawal" !in ["Deposit", "Balance", "Category"]
    ensures "Description" !in ["Withdrawal", "Deposit", "Balance", "Category"]
    ensures "Transaction_ID" !in ["Description", "Withdrawal", "Deposit", "Balance", "Category"]
    ensures "Posted_Date" !in ["Transaction_ID", "Description", "Withdrawal", "Deposit", "Balance", "Category"]
    ensures "Transaction_Date" !in
      ["Posted_Date", "Transaction_ID", "Description", "Withdrawal", "Deposit", "Balance", "Category"]
  {
    FieldNamesDiffer();
  }

  /** The declared field names are pairwise different. */
  lemma FieldNamesDiffer()
    ensures "Transaction_Date" != "Posted_Date" && "Transaction_Date" != "Transaction_ID" && "Transaction_Date" != "Description"
    ensures "Transaction_Date" != "Withdrawal" && "Transaction_Date" != "Deposit" && "Transaction_Date" != "Balance" && "Transaction_Date" != "Category"
    ensures "Posted_Date" != "Transaction_ID" && "Posted_Date" != "Description" && "Posted_Date" != "Withdrawal"
    ensures "Posted_Date" != "Deposit" && "Posted_Date" != "Balance" && "Posted_Date" != "Category"
    ensures "Transaction_ID" != "Description" && "Transaction_ID" != "Withdrawal" && "Transaction_ID" != "Deposit"
    ensures "Transaction_ID" != "Balance" && "Transaction_ID" != "Category"
    ensures "Description" != "Withdrawal" && "Description" != "Deposit" && "Description" != "Balance"
    ensures "Description" != "Category"
    ensures "Withdrawal" != "Deposit" && "Withdrawal" != "Balance" && "Withdrawal" != "Category"
    ensures "Deposit" != "Balance" && "Deposit" != "Category"
    ensures "Balance" != "Category"
  {
  }

  /** The error about the transaction date says whether it is absent or holds something other than text. */
  lemma TransactionDateErrorNamed(d: Dict)
    ensures MissingField("Transaction_Date") in ValidationErrors(d) <==> "Transaction_Date" !in d
    ensures WrongType("Transaction_Date") in ValidationErrors(d) <==> "Transaction_Date" in d && !d["Transaction_Date"].Text?
  {
    FieldNamesDiffer();
  }

  /** The error about the posted date says whether it is absent or holds something other than text. */
  lemma PostedDateErrorNamed(d: Dict)
    ensures MissingField("Posted_Date") in ValidationErrors(d) <==> "Posted_Date" !in d
    ensures WrongType("Posted_Date") in ValidationErrors(d) <==> "Posted_Date" in d && !d["Posted_Date"].Text?
  {
    FieldNamesDiffer();
  }

  /** The error about the transaction id says whether it is absent or holds something other than text. */
  lemma TransactionIdErrorNamed(d: Dict)
    ensures MissingField("Transaction_ID") in ValidationErrors(d) <==> "Transaction_ID" !in d
    ensures WrongType("Transaction_ID") in ValidationErrors(d) <==> "Transaction_ID" in d && !d["Transaction_ID"].Text?
  {
    FieldNamesDiffer();
  }

  /** The error about the description says whether it is absent or holds something other than text. */
  lemma DescriptionErrorNamed(d: Dict)
    ensures MissingField("Description") in ValidationErrors(d) <==> "Description" !in d
    ensures WrongType("Description") in ValidationErrors(d) <==> "Description" in d && !d["Description"].Text?
  {
    FieldNamesDiffer();
  }

  /** The withdrawal amount is optional: it is never missing, and is mistyped exactly when it holds text. */
  lemma WithdrawalErrorNamed(d: Dict)
    ensures MissingField("Withdrawal") !in ValidationErrors(d)
    ensures WrongType("Withdrawal") in ValidationErrors(d) <==> "Withdrawal" in d && d["Withdrawal"].Text?
  {
    FieldNamesDiffer();
  }

  /** The deposit amount is optional: it is never missing, and is mistyped exactly when it holds text. */
  lemma DepositErrorNamed(d: Dict)
    ensures MissingField("Deposit") !in ValidationErrors(d)
    ensures WrongType("Deposit") in ValidationErrors(d) <==> "Deposit" in d && d["Deposit"].Text?
  {
    FieldNamesDiffer();
  }

  /** The error about the balance says whether it is absent or holds something other than a number. */
  lemma BalanceErrorNamed(d: Dict)
    ensures MissingField("Balance") in ValidationErrors(d) <==> "Balance" !in d
    ensures WrongType("Balance") in ValidationErrors(d) <==> "Balance" in d && !d["Balance"].Num?
  {
    FieldNamesDiffer();
  }

  /** The error about the category says whether it is absent or holds something other than text. */
  lemma CategoryErrorNamed(d: Dict)
    ensures MissingField("Category") in ValidationErrors(d) <==> "Category" !in d
    ensures WrongType("Category") in ValidationErrors(d) <==> "Category" in d && !d["Category"].Text?
  {
    FieldNamesDiffer();
  }

  /** Validation reports at most one error per field. */
  lemma ValidationErrorsDistinct(d: Dict)
    ensures DistinctFields(ValidationErrors(d))
  {
    FieldNamesDistinct();
    var e8 := CheckText(d, "Category");
    var e7 := CheckNum(d, "Balance") + e8;
    PrependDistinct(CheckNum(d, "Balance"), "Balance", e8, ["Category"]);
    var e6 := CheckOptionalNum(d, "Deposit") + e7;
    PrependDistinct(CheckOptionalNum(d, "Deposit"), "Deposit", e7, ["Balance", "Category"]);
    var e5 := CheckOptionalNum(d, "Withdrawal") + e6;
    PrependDistinct(CheckOptionalNum(d, "Withdrawal"), "Withdrawal", e6, ["Deposit", "Balance", "Category"]);
    var e4 := CheckText(d, "Description") + e5;
    PrependDistinct(CheckText(d, "Description"), "Description", e5,
      ["Withdrawal", "Deposit", "Balance", "Category"]);
    var e3 := CheckText(d, "Transaction_ID") + e4;
    PrependDistinct(CheckText(d, "Transaction_ID"), "Transaction_ID", e4,
      ["Description", "Withdrawal", "Deposit", "Balance", "Category"]);
    var e2 := CheckText(d, "Posted_Date") + e3;
    PrependDistinct(CheckText(d, "Posted_Date"), "Posted_Date", e3,
      ["Transaction_ID", "Description", "Withdrawal", "Deposit", "Balance", "Category"]);
    PrependDistinct(CheckText(d, "Transaction_Date"), "Transaction_Date", e2,
      ["Posted_Date", "Transaction_ID", "Description", "Withdrawal", "Deposit", "Balance", "Category"]);
  }

  /**
   * Validation of a dictionary into a Transaction: succeeds exactly when the
   * six required fields are present with their types and the two optional
   * amounts are absent, `None` or numbers; otherwise lists the offending
   * fields in declaration order. Keys outside the schema are ignored.
   */
  function TransactionFromDict(d: Dict): (r: Result<Transaction, seq<ValidationError>>)
    ensures r.Ok? <==> ConformsToTransaction(d)
    ensures r.Ok? ==> r.value.withdrawal == OptionalNum(d, "Withdrawal")
    ensures r.Ok? ==> r.value.deposit == OptionalNum(d, "Deposit")
    ensures r.Ok? ==> Text(r.value.transactionDate) == d["Transaction_Date"]
    ensures r.Ok? ==> Text(r.value.postedDate) == d["Posted_Date"]
    ensures r.Ok? ==> Text(r.value.transactionId) == d["Transaction_ID"]
    ensures r.Ok? ==> Text(r.value.description) == d["Description"]
    ensures r.Ok? ==> Num(r.value.balance) == d["Balance"]
    ensures r.Ok? ==> Text(r.value.category) == d["Category"]
    ensures r.Err? ==> 0 < |r.error| <= |TransactionFields|
    ensures r.Err? ==> forall e :: e in r.error ==> e.field in TransactionFields
  {
    var errors := ValidationErrors(d);
    if errors == [] then
      Ok(Transaction(
        d["Transaction_Date"].text, d["Posted_Date"].text,
        d["Transaction_ID"].text, d["Description"].text,
        OptionalNum(d, "Withdrawal"), OptionalNum(d, "Deposit"),
        d["Balance"].num, d["Category"].text))
    else
      Err(errors)
  }

  /** Converting a Transaction to its dictionary and validating it back gives the Transaction. */
  lemma DictRoundTrip(t: Transaction)
    ensures TransactionFromDict(TransactionToDict(t)) == Ok(t)
  {
    var d := TransactionToDict(t);
    TransactionDictShape(t);
    assert ConformsToTransaction(d);
    assert OptionalNum(d, "Withdrawal") == t.withdrawal;
    assert OptionalNum(d, "Deposit") == t.deposit;
  }

  /** A dictionary lacking a required key is rejected, naming that key. */
  lemma RequiredFieldIsEnforced(d: Dict, key: string)
    requires key in TransactionFields && key != "Withdrawal" && key != "Deposit"
    requires key !in d
    ensures TransactionFromDict(d).Err?
    ensures MissingField(key) in TransactionFromDict(d).error
  {
    assert MissingField(key) in CheckText(d, key) && MissingField(key) in CheckNum(d, key);
    assert key == "Transaction_Date" || key == "Posted_Date" || key == "Transaction_ID"
        || key == "Description" || key == "Balance" || key == "Category";
  }

  /** A dictionary lacking the amount keys yields a Transaction with both amounts absent. */
  lemma AmountsDefaultToAbsent(d: Dict)
    requires ConformsToTransaction(d)
    requires "Withdrawal" !in d && "Deposit" !in d
    ensures TransactionFromDict(d).Ok?
    ensures TransactionFromDict(d).value.withdrawal == None
    ensures TransactionFromDict(d).value.deposit == None
  {
  }
}

=== FILE: wrappers.dfy ===
/** Optional values and fallible results, shared by every module of the model. */
module Wrappers {

  /** A value that may be absent: Python's `Optional[T]`, with `None` for absence. */
  datatype Option<+T> = None | Some(value: T) {

    /** The wrapped value, or `default` when absent. */
    function GetOr(default: T): T {
      match this
      case Some(v) => v
      case None => default
    }
  }

  /** The outcome of a step that may raise: `Ok` carries the value, `Err` what was raised. */
  datatype Result<+T, +E> = Ok(value: T) | Err(error: E)
}
